=== FILE: README.md ===
# Heart-attack risk prediction: inference core in Dafny

This project models the inference core of the health-prediction service.
Each module below stands for part of the Python code:

- **`Preprocessor`** is the V2 `DataPreprocessor` (src/preprocessing/preprocessor.py). Its `transform` runs seven steps:
  1. drop the service columns;
  2. encode Gender;
  3. impute the nine columns with missing values;
  4. add absent base columns as 0;
  5. select the 25 base features;
  6. convert to float;
  7. append the 18 engineered features.

  Its `preprocess_single` applies the same transform to a one-row table built from a dict. The fill values come from a persisted file when it can be read, and from built-in training modes otherwise.
- **`Features`** holds the base and engineered column lists and the engineered formulas.
- **`FloatArith`** holds the float arithmetic those formulas use: exact on finite values, with NaN absorbing.
- **`Predictor`** is `ModelPredictor` (src/prediction/predictor.py). It loads the model lazily and falls back to the default threshold when none is stored. A failed load is retried on the next call. Predictions are thresholded inclusively (class 1 when the probability is at least the threshold). The output gives a HIGH/LOW risk label, probabilities rounded to four places, and batch ids taken from the `id` column or the row positions.
- **`LegacyPreprocessor`** is the first-generation `DataPreprocessor` (src/preprocessing/data_preprocessor.py). Its `fit` records the feature columns; its `transform` and `fit_transform` return the table unchanged.
- **`Config`** holds the constants of src/utils/config.py.
- **`Frames`** models a pandas table as named columns plus rows of cells, and a Python dict as ordered keys and values.

## Representation

- A cell is either a number, a string or missing (`Value`). After float conversion it is either finite or NaN (`Float`).
- The model stands in for Python's `float` on a string with a parameter `parse`.
- The trained classifier is a type parameter `M`. A parameter `proba(m, row)` gives the probability of class 1 for one feature row.
- The contents of the model, threshold and fill-value files are `Artifact` values: absent, unreadable, or present with a value.
- Every operation that can raise in the source returns a `Result` or an `Outcome` carrying one of these errors:
  - `ModelNotFound`;
  - `ArtifactUnreadable`;
  - `UnseenGenderLabel`, raised by the label encoder;
  - `NotNumeric`, raised by `astype(float)`.

`PreprocessorProofs` holds an independent reference definition of the V2 transform, computed cell by cell for each row. It proves that the seven-step transform equals this reference. From that it derives:

- row independence;
- the link between `preprocess_single` and `transform`;
- what each input cell becomes in the output.

Row independence is a property of the model. The source decides once per column, by dtype, whether to call the label encoder on Gender, and on some Gender columns that decision breaks row independence in the source (see "## Left out").

## Model

| member | source | states |
|---|---|---|
| Features.FeatureCounts | src/preprocessing/preprocessor.py:24-112 | there are 25 base features, 18 engineered features and 43 output columns |
| Features.BaseFeaturesDistinct | src/preprocessing/preprocessor.py:24-32 | no base feature name is repeated, so selecting them yields one column per name |
| Features.CreateFeatures | src/preprocessing/preprocessor.py:61-114 | the output row keeps the 25 base values unchanged, then appends each engineered value at its column position, computed by that column's formula |
| Features.Engineer | src/preprocessing/preprocessor.py:181-182 | feature engineering keeps the row count, produces the 43 feature names as columns, and turns each row into its engineered row |
| FeatureProofs.EngineeredDistinct | src/preprocessing/preprocessor.py:69-112 | the 18 engineered column names are distinct |
| FeatureProofs.BaseNotEngineered | src/preprocessing/preprocessor.py:24-112 | no engineered column overwrites a base column |
| FeatureProofs.FeatureNamesLayout | src/preprocessing/preprocessor.py:24-112 | the output has 43 distinct columns: the base features first in their declared order, then the named engineered columns at their positions |
| FeatureProofs.FeatureDependsOnlyOnInputs | src/preprocessing/preprocessor.py:69-112 | an engineered value depends only on the base columns its formula reads |
| FeatureProofs.UnusedColumnsDoNotAffectFeatures | src/preprocessing/preprocessor.py:69-112 | heart rate, diet, medication use, income, blood sugar and Gender affect no engineered value |
| FeatureProofs.FeatureFiniteIff | src/preprocessing/preprocessor.py:69-112 | an engineered value is finite exactly when all its inputs are, and it is NaN exactly when one of its inputs is |
| FeatureProofs.TotalIsLifestylePlusMedical | src/preprocessing/preprocessor.py:82 | the total risk score is the lifestyle score plus the medical score |
| FeatureProofs.LifestyleScore | src/preprocessing/preprocessor.py:69-74 | on finite inputs, the lifestyle score is smoking + obesity + alcohol + (1 − active days / 7) |
| FeatureProofs.MedicalScore | src/preprocessing/preprocessor.py:76-80 | on finite inputs, the medical score is diabetes + family history + previous heart problems |
| FeatureProofs.RiskScoreRanges | src/preprocessing/preprocessor.py:69-82 | with indicator inputs in [0, 1] and 0–7 active days, the lifestyle score lies in [0, 4], the medical score in [0, 3] and the total in [0, 7] |
| FeatureProofs.MeanArterialPressure | src/preprocessing/preprocessor.py:90-94 | the pulse pressure is systolic − diastolic; the mean arterial pressure is (2·diastolic + systolic)/3 and lies between the two pressures |
| FeatureProofs.BloodPressureScenario | src/preprocessing/preprocessor.py:90-94 | pressures 0.8/0.5 give a pulse pressure of 0.3 and a mean arterial pressure of 0.6 |
| FeatureProofs.SleepQualityBounds | src/preprocessing/preprocessor.py:101 | sleep quality is at most 1, equals 1 exactly at 0.5 sleep hours, and is non-negative for sleep hours in [0, 1] |
| FeatureProofs.SquaresNonNegative | src/preprocessing/preprocessor.py:104-106 | the three squared columns are the squares of their inputs and are never negative |
| FeatureProofs.InteractionProducts | src/preprocessing/preprocessor.py:109-112 | the four interaction columns are the products of their two inputs |
| FeatureProofs.InteractionsAreConjunctions | src/preprocessing/preprocessor.py:109-111 | on 0/1 flags, each binary interaction column is the flag of the conjunction of its two inputs |
| FeatureProofs.InteractionScenario | src/preprocessing/preprocessor.py:109-111 | a smoker with diabetes, no obesity and no family history has only the smoking-diabetes interaction set |
| Preprocessor.InitFillValues | src/preprocessing/preprocessor.py:51-59 | the fill values are the persisted map when it can be read; otherwise (file absent, or reading it raised) they are the built-in defaults |
| Preprocessor.DropColumns | src/preprocessing/preprocessor.py:142-146 | a column survives exactly when it is not in the drop list, absent names are skipped, and every surviving cell is unchanged |
| Preprocessor.GenderEncoding | src/preprocessing/preprocessor.py:150-158 | the Female forms encode to 0 and the Male forms to 1 (iff); missing values and other numbers are kept; only strings outside both forms stay strings |
| Preprocessor.EncodeGender | src/preprocessing/preprocessor.py:148-162 | without a Gender column the table is unchanged. Otherwise the step fails with the label-encoder error exactly when some encoded cell is still a string, and on success only Gender cells change, each to its encoding |
| Preprocessor.Impute | src/preprocessing/preprocessor.py:164-167 | a missing cell in a column with a fill value becomes that value; every other cell is unchanged |
| Preprocessor.AddAbsent | src/preprocessing/preprocessor.py:169-173 | the columns become the input columns plus the listed names; present cells are unchanged and added cells are 0 |
| Preprocessor.Coerce | src/preprocessing/preprocessor.py:178-179 | conversion succeeds exactly when every cell converts, each output cell is its input cell converted, and failure reports the not-numeric error |
| Preprocessor.TransformSteps | src/preprocessing/preprocessor.py:139-185 | on success the output has the 43 feature columns and the same number of rows |
| Preprocessor.Transform | src/preprocessing/preprocessor.py:129-185 | on success the output has the 43 feature columns, the same number of rows and 43 cells per row |
| Preprocessor.PreprocessSingle | src/preprocessing/preprocessor.py:116-127 | on success the output is one row under the 43 feature columns |
| PreprocessorProofs.ConvertRowCells | src/preprocessing/preprocessor.py:178-179 | a row converts exactly when each of its cells converts, and to those cells' values |
| PreprocessorProofs.DropListOutsideBase | src/utils/config.py:40 | neither dropped service column is a base feature |
| PreprocessorProofs.EncodedCell | src/preprocessing/preprocessor.py:142-162 | after the drop and Gender steps, a kept column holds its input cell, encoded when it is Gender |
| PreprocessorProofs.ImputedCell | src/preprocessing/preprocessor.py:164-167 | after imputation, each cell is the imputation of the cell before it |
| PreprocessorProofs.CompletedCell | src/preprocessing/preprocessor.py:169-173 | after zero-filling, a listed column holds its earlier cell when present and 0 otherwise |
| PreprocessorProofs.CompleteCell | src/preprocessing/preprocessor.py:142-173 | after steps 1–4, each base column holds the reference base value of its row |
| PreprocessorProofs.SelectedCells | src/preprocessing/preprocessor.py:175-176 | selecting the base features gives, cell by cell, the reference base values |
| PreprocessorProofs.SelectedRows | src/preprocessing/preprocessor.py:164-176 | after steps 3–5, each row is exactly the row's reference base row |
| PreprocessorProofs.GenderStep | src/preprocessing/preprocessor.py:148-162 | the Gender step fails exactly when some row holds a Gender string the label encoder rejects |
| PreprocessorProofs.ConvertedAgrees | src/preprocessing/preprocessor.py:178-182 | converting and engineering the reference base rows gives the reference, including the not-numeric failure |
| PreprocessorProofs.ConvertFailed | src/preprocessing/preprocessor.py:178-179 | if conversion fails, the reference fails with the not-numeric error |
| PreprocessorProofs.ConvertSucceeded | src/preprocessing/preprocessor.py:178-182 | if conversion succeeds, the reference is the engineered converted table |
| PreprocessorProofs.StepsAfterGender | src/preprocessing/preprocessor.py:164-182 | once the Gender step passes, the remaining steps equal the reference |
| PreprocessorProofs.StepsMatchReference | src/preprocessing/preprocessor.py:139-185 | the seven steps equal the cell-by-cell reference, for any drop list outside the base features |
| PreprocessorProofs.TransformMatchesReference | src/preprocessing/preprocessor.py:129-185 | `transform` equals the independent cell-by-cell reference definition |
| PreprocessorProofs.TransformByRows | src/preprocessing/preprocessor.py:129-185 | the table transforms iff every row's reference does; it fails on Gender iff some row is rejected; on success each output row is that row's reference |
| PreprocessorProofs.RowRejection | src/preprocessing/preprocessor.py:148-179 | a row fails on Gender exactly when its Gender string is rejected; any other failure is the not-numeric error |
| PreprocessorProofs.ReferenceByRows | src/preprocessing/preprocessor.py:129-185 | the reference fails only with one of the two errors and otherwise holds each row's reference under the 43 feature columns |
| PreprocessorProofs.SingleRowReference | src/preprocessing/preprocessor.py:116-127 | the reference of a one-row table is its row's reference |
| PreprocessorProofs.OneRowReference | src/preprocessing/preprocessor.py:116-127 | the reference of row i taken alone is row i of the table's reference, with the same success and Gender-rejection conditions |
| PreprocessorProofs.TransformRowIndependent | src/preprocessing/preprocessor.py:116-185 | the one-row table of row i is the table built from that row's dict; when the table transforms, that one-row table transforms to exactly row i of the result |
| PreprocessorProofs.TransformSucceedsIffEveryRowDoes | src/preprocessing/preprocessor.py:129-185 | a table transforms iff each of its rows transforms alone, and fails on Gender iff some row alone does |
| PreprocessorProofs.RowOutput | src/preprocessing/preprocessor.py:175-182 | an output row has 43 cells: the converted base values followed by the features engineered from them |
| PreprocessorProofs.TransformOutputRow | src/preprocessing/preprocessor.py:129-185 | each output row equals the features engineered from its own first 25 cells, and each base cell is the converted reference value |
| PreprocessorProofs.AbsentBaseColumnIsZero | src/preprocessing/preprocessor.py:169-173 | a base feature missing from the input comes out as 0 in every row |
| PreprocessorProofs.ImputationInOutput | src/preprocessing/preprocessor.py:164-167 | in the output, a missing cell with a fill value is the converted fill value and one without a fill value is NaN; a present cell is only converted |
| PreprocessorProofs.GenderInOutput | src/preprocessing/preprocessor.py:148-162 | in the output, Female forms are 0, Male forms are 1, other numbers pass through, and a missing Gender without a fill value is NaN |
| PreprocessorProofs.GenderBaseValue | src/preprocessing/preprocessor.py:148-167 | the same Gender facts, stated for the row reference |
| PreprocessorProofs.UnknownGenderStringRejected | src/preprocessing/preprocessor.py:159-162 | one Gender string outside the Female and Male forms, in any row, fails the whole table with the label-encoder error |
| PreprocessorProofs.NumericRowConverts | src/preprocessing/preprocessor.py:178-179 | a row without strings, under non-string fill values, always converts |
| PreprocessorProofs.NumericInputAlwaysTransforms | src/preprocessing/preprocessor.py:129-185 | a table without strings, under non-string fill values, always transforms |
| PreprocessorProofs.ExtraColumnIgnored | src/preprocessing/preprocessor.py:175-176 | appending a column that is not a base feature leaves the transform unchanged |
| PreprocessorProofs.ExtraColumnRow | src/preprocessing/preprocessor.py:175-176 | the same, for one row and its reference |
| ConfigProofs.ThresholdIsProbability | src/utils/config.py:30 | the default threshold lies in [0, 1] |
| ConfigProofs.FillValuesCoverMissingColumns | src/utils/config.py:43-47 | the built-in fill values cover exactly the columns with missing values, and all of them are numbers |
| ConfigProofs.MissingColumnsAreBaseFeatures | src/utils/config.py:43-47 | every column with missing values is a base feature other than Gender |
| ConfigProofs.DefaultImputation | src/preprocessing/preprocessor.py:35-59 | without a readable fill file, a missing cell of such a column comes out as the built-in mode; with one, as the persisted value, or NaN if the persisted map lacks the column |
| ConfigProofs.MissingSmokingDefaultsToOne | src/preprocessing/preprocessor.py:35-45 | without a readable fill file, a missing Smoking cell comes out as 1 |
| LegacyPreprocessor.New | src/preprocessing/data_preprocessor.py:18-22 | a new preprocessor has no feature columns yet and an empty drop list |
| LegacyPreprocessor.FeatureColumns | src/preprocessing/data_preprocessor.py:38-41 | a name is a feature column exactly when it is an input column other than the target, `id` and `Unnamed: 0` |
| LegacyPreprocessor.FeatureColumnsOrder | src/preprocessing/data_preprocessor.py:38-41 | the selection distributes over concatenation, so it keeps the input order |
| LegacyPreprocessor.FeatureColumnsDistinct | src/preprocessing/data_preprocessor.py:38-41 | distinct input columns give distinct feature columns |
| LegacyPreprocessor.NothingExcludedKeepsAll | src/preprocessing/data_preprocessor.py:38-41 | a table without the target and service columns keeps all its columns, in order |
| LegacyPreprocessor.Fit | src/preprocessing/data_preprocessor.py:24-48 | after `fit` the feature columns are the input columns that are not excluded, in input order (so `FeatureColumnsOrder` applies); the drop list is unchanged |
| LegacyPreprocessor.FitForgetsEarlierFit | src/preprocessing/data_preprocessor.py:38-48 | refitting depends only on the new table and target, not on an earlier fit |
| LegacyPreprocessor.Transform | src/preprocessing/data_preprocessor.py:50-66 | `transform` returns its input's columns and rows unchanged |
| LegacyPreprocessor.FitTransform | src/preprocessing/data_preprocessor.py:68-79 | `fit_transform` records the feature columns of its table |
| LegacyPreprocessor.FitTransformIsFitThenIdentity | src/preprocessing/data_preprocessor.py:68-79 | `fit_transform` leaves the state `fit` leaves and returns its input, whatever the state was |
| LegacyPreprocessor.ExclusionsMatchConfig | src/preprocessing/data_preprocessor.py:24-41 | the default target is the configured target column, and the excluded names are exactly it plus the configured service columns |
| Predictor.Create | src/prediction/predictor.py:23-36 | a new predictor is not loaded, holds no model, uses the default threshold, and takes its fill values from the fill-value file |
| Predictor.LoadModel | src/prediction/predictor.py:38-57 | loading passes iff the model is readable and the threshold file is absent or readable. A missing model gives ModelNotFound and an unreadable one an unreadable-artifact error, each leaving the state unchanged. On pass the threshold is the stored one or the default; on failure loaded and threshold are kept |
| Predictor.EnsureLoaded | src/prediction/predictor.py:59-62 | a loaded predictor with a model passes without reading the files; otherwise this is `load_model`; passing means loaded with a model |
| Predictor.Classify | src/prediction/predictor.py:83 | the prediction is 0 or 1, and it is 1 exactly when the probability is at least the threshold |
| Predictor.RiskLevel | src/prediction/predictor.py:86 | the risk level is HIGH or LOW |
| Predictor.Round4 | src/prediction/predictor.py:90 | the rounded probability is within 1/20000 of the probability |
| Predictor.PredictSingle | src/prediction/predictor.py:64-94 | a load failure is returned as is; after loading, the call succeeds iff the dict preprocesses, and otherwise returns the preprocessing error. On success the prediction is 1 iff the model's probability reaches the threshold, the label is HIGH iff the prediction is 1, the probability is rounded, and the threshold used is the loaded one |
| Predictor.BatchIds | src/prediction/predictor.py:109 | there is one id per row: the `id` cell when that column exists, the row position otherwise |
| Predictor.Score | src/prediction/predictor.py:115-125 | each result row carries its id, prediction 1 iff its probability reaches the threshold and 0 iff it is below, and its rounded probability |
| Predictor.Predict | src/prediction/predictor.py:96-128 | a load failure is returned as is; after loading, the call succeeds iff the table transforms, and otherwise returns the transform's error. On success there is one result per input row, with its id, a prediction of 1 iff its probability reaches the threshold and 0 iff it is below, and its rounded probability |
| Predictor.LoadingKeepsValid | src/prediction/predictor.py:38-62 | loading never leaves a predictor marked loaded without a model |
| Predictor.LoadedStaysLoaded | src/prediction/predictor.py:59-62 | after a successful load, later calls pass without reloading, whatever the files hold then |
| Predictor.RetryAfterFailure | src/prediction/predictor.py:38-62 | after a failed load the predictor stays unloaded, and the next call loads again from the files as they are then |
| Predictor.FirstLoad | src/prediction/predictor.py:23-57 | a new predictor loads iff the model is readable and the threshold file is absent or readable; the threshold is the stored one or the default; after a failure it is still the default |
| Predictor.ClassifyMonotone | src/prediction/predictor.py:83 | a higher probability never lowers the prediction, and a higher threshold never raises it |
| Predictor.RiskLabel | src/prediction/predictor.py:86 | the label is HIGH exactly for prediction 1 and LOW exactly for prediction 0 |
| Predictor.DefaultThresholdInclusive | src/prediction/predictor.py:83 | with the default threshold 0.40, a probability of exactly 0.40 is class 1 and anything below it is class 0 |
| Predictor.Round4Properties | src/prediction/predictor.py:90 | rounding is idempotent and keeps a probability within [0, 1] |
| Predictor.BatchAgreesWithSingle | src/prediction/predictor.py:64-128 | on a successful batch, `predict_single` on row i as a dict gives the same prediction and rounded probability as batch row i, and leaves the same state |
| Predictor.BatchSucceedsIffEverySingleDoes | src/prediction/predictor.py:96-128 | once loaded, a batch succeeds exactly when `predict_single` succeeds on every row |

## Where the code and its comments differ

- The docstring of `_create_features` (src/preprocessing/preprocessor.py:64) says 17 features are created. The code creates 18 (lines 69-112), so a transformed table has 43 columns. The model follows the code.
- The Gender step replaces only the listed strings and the numbers 0 and 1, and `map(...).fillna(...)` keeps unmatched values (src/preprocessing/preprocessor.py:150-158). So a number such as 2.0 passes through unchanged, and only a surviving string reaches the label encoder, provided pandas silently downcasts the column to a numeric dtype after `fillna`. The model follows the code: `GenderInOutput` states that numbers pass through.

## Left out

- Logging: every `logger` call is omitted; none of them affects a result.
- Python's `float` on a string is the parameter `parse`. The model does not fix which strings parse.
- `Float` has no infinities. `float("inf")` and strings such as "1e400" that overflow, overflow in an engineered formula such as the square of a huge Age, and the NaN that inf − inf gives are not modelled. Arithmetic is exact on reals rather than IEEE-754 rounded.
- `Frames.WellFormed` assumes distinct column names. pandas allows duplicate column names, which the model does not represent.
- EncodeGender: pandas decides whether to call the label encoder by the dtype of the whole column, and the model approximates that by "some cell is still a string". These are the known differences:
  - A Gender column holding only Python `None` stays object dtype, and pandas then passes it to the label encoder, which rejects it. The model treats `None` like NaN, so it passes and comes out NaN, or as the Gender fill value when one is persisted.
  - Whether a column of numbers and NaN is downcast after `fillna` depends on pandas' silent-downcasting behaviour.
  - The label encoder is fitted on "Female" and "Male", so it first casts the column to 6-character strings, and longer strings are cut to 6 characters. A Gender column whose cells are all strings longer than 6 characters beginning with "Female" (for example "Female " with a trailing space) is therefore encoded as 0 and passes in the source. The model rejects every string that is not one of the listed Female or Male forms.
- PreprocessorProofs.UnknownGenderStringRejected: inherits the truncation difference above; in the source a column made only of strings such as "Female " is accepted.
- Preprocessor.Transform: inherits the EncodeGender approximation, for all-`None` Gender columns and for the 6-character truncation.
- Preprocessor.PreprocessSingle: inherits the same approximation, for example for a dict with `"Gender": None` or `"Gender": "Female "`.
- PreprocessorProofs.TransformRowIndependent: holds of the model only. Because the source decides per column, the batch `[{"Gender": "Female"}, {"Gender": None}]` can pass (the column `[0, None]` is downcast to float) while the single row `{"Gender": None}` fails; and the batch `["Female", "Female "]` fails while each row passes on its own.
- PreprocessorProofs.TransformSucceedsIffEveryRowDoes: holds of the model only, for the same two Gender columns.
- Predictor.BatchAgreesWithSingle: holds of the model only, for the same two Gender columns.
- Predictor.BatchSucceedsIffEverySingleDoes: holds of the model only, for the same two Gender columns.
- Preprocessor.Impute: the fill-value file is taken to hold a dict with no `None` values. In the source a file holding something other than a dict makes `.items()` raise on every transform, and a `None` fill value for a present column makes `fillna` raise; the model represents `None` and NaN alike as a missing value, so a `None` fill value leaves the cell missing and the transform succeeds with NaN.
- PreprocessorProofs.NumericInputAlwaysTransforms: inherits the `Impute` assumption; a persisted `None` fill value for a present column makes the source raise, while the model transforms.
- ConfigProofs.DefaultImputation: inherits the `Impute` assumption for a persisted map.
- Round4: rounds half up on exact reals. Python's `round` on a binary float rounds the nearest representable value, ties to even.
- The `risk_percentage` string of `predict_single` (src/prediction/predictor.py:92) is not modelled, being a formatting-only field.
- `get_model_info` (src/prediction/predictor.py:130-148): its effect on the predictor is `EnsureLoaded` (line 132), so on an unloaded predictor it reads the model and threshold files and fails when the model file is missing; the attribute dict it returns is not modelled, because it only reports the type name, path, threshold and load flag.
- Paths are not modelled: the file locations and `Config` path constants become the `Storage` and `Artifact` parameters. The threshold file's content is taken to be a number.
- The classifier is the parameter `proba`. It scores each row on its own.
- Predict: scikit-learn's rejection of a batch with zero rows is not modelled, so `Predict` returns an empty result there.
- The legacy `StandardScaler` (src/preprocessing/data_preprocessor.py:20) is never used by the code and is not modelled.
- The rest of the repository (the HTTP API, training notebooks, other configuration constants) is outside the inference core.

=== FILE: config.dfy ===
/** The project constants the inference pipeline depends on (src/utils/config.py). */
module Config {

  /** Decision cut-off used until a persisted threshold is loaded. */
  const DEFAULT_THRESHOLD: real := 0.40

  /** Name of the label column in the training data. */
  const TARGET_COLUMN: string := "Heart Attack Risk (Binary)"

  /** Service columns removed before feature processing. */
  const COLUMNS_TO_DROP: seq<string> := ["Unnamed: 0", "id"]

  /** Columns that have missing values in the training data. */
  const COLUMNS_WITH_MISSING: seq<string> := [
    "Diabetes", "Family History", "Smoking", "Obesity",
    "Alcohol Consumption", "Previous Heart Problems",
    "Medication Use", "Stress Level", "Physical Activity Days Per Week"
  ]
}

=== FILE: config_proofs.dfy ===
/** How the project constants fit together with the preprocessor's built-in
    fill values and feature list. */
module ConfigProofs {
  import opened Results
  import opened Frames
  import opened Features
  import opened Preprocessor
  import PreprocessorProofs
  import Config

  /** The default decision threshold is a probability. */
  lemma ThresholdIsProbability()
    ensures 0.0 <= Config.DEFAULT_THRESHOLD <= 1.0
  {
  }

  /** The built-in fill values cover exactly the columns with missing values,
      each of them numeric. */
  lemma FillValuesCoverMissingColumns()
    ensures DEFAULT_FILL_VALUES.Keys == set c | c in Config.COLUMNS_WITH_MISSING
    ensures forall c | c in DEFAULT_FILL_VALUES :: DEFAULT_FILL_VALUES[c].Num?
  {
  }

  /** Every column with missing values is a base feature, and none of them is
      Gender, so imputation applies to them unchanged. */
  lemma MissingColumnsAreBaseFeatures()
    ensures forall c | c in Config.COLUMNS_WITH_MISSING :: c in BASE_FEATURES && c != GENDER_COLUMN
  {
  }

  /** With no readable persisted fill map, a missing cell of a present column
      that has missing values in training comes out as the built-in fill
      value; with a readable one, as the persisted value. */
  lemma DefaultImputation(f: Frame<Value>, persisted: Artifact<FillMap>, parse: string -> Option<Float>, i: nat, j: nat)
    requires WellFormed(f) && i < |f.rows| && j < BASE_COUNT
    requires BASE_FEATURES[j] in Config.COLUMNS_WITH_MISSING && BASE_FEATURES[j] in f.columns
    requires Cell(f, i, BASE_FEATURES[j]).Missing?
    requires Transform(f, InitFillValues(persisted), parse).Success?
    ensures var out := Transform(f, InitFillValues(persisted), parse).value.rows[i][j];
            && (!persisted.Present? ==> out == Fin(DEFAULT_FILL_VALUES[BASE_FEATURES[j]].x))
            && (persisted.Present? && BASE_FEATURES[j] in persisted.content ==>
                  ToFloat(persisted.content[BASE_FEATURES[j]], parse) == Some(out))
            && (persisted.Present? && BASE_FEATURES[j] !in persisted.content ==> out == NaN)
  {
    MissingColumnsAreBaseFeatures();
    FillValuesCoverMissingColumns();
    PreprocessorProofs.ImputationInOutput(f, InitFillValues(persisted), parse, i, j);
  }

  /** Where Smoking stands among the constants. */
  lemma SmokingFacts()
    ensures BASE_FEATURES[SMOKING] == "Smoking"
    ensures "Smoking" in Config.COLUMNS_WITH_MISSING
    ensures DEFAULT_FILL_VALUES["Smoking"] == Num(1.0)
  {
    assert Config.COLUMNS_WITH_MISSING[2] == "Smoking";
  }

  /** For instance, a missing Smoking cell comes out as 1 when the fill map
      file is absent or unreadable. */
  lemma MissingSmokingDefaultsToOne(f: Frame<Value>, persisted: Artifact<FillMap>, parse: string -> Option<Float>, i: nat)
    requires WellFormed(f) && i < |f.rows| && "Smoking" in f.columns && !persisted.Present?
    requires Cell(f, i, "Smoking").Missing?
    requires Transform(f, InitFillValues(persisted), parse).Success?
    ensures Transform(f, InitFillValues(persisted), parse).value.rows[i][SMOKING] == Fin(1.0)
  {
    SmokingFacts();
    DefaultImputation(f, persisted, parse, i, SMOKING);
  }
}

=== FILE: features.dfy ===
/** The V2 feature layout: the 25 base columns, the 18 engineered columns
    and the formulas that derive the latter from the former
    (src/preprocessing/preprocessor.py). */
module Features {
  import opened Frames
  import opened FloatArith

  /** The base features, in the order the model expects them. */
  const BASE_FEATURES: seq<string> := [
    "Age", "Cholesterol", "Heart rate", "Diabetes", "Family History",
    "Smoking", "Obesity", "Alcohol Consumption", "Exercise Hours Per Week",
    "Diet", "Previous Heart Problems", "Medication Use", "Stress Level",
    "Sedentary Hours Per Day", "Income", "BMI", "Triglycerides",
    "Physical Activity Days Per Week", "Sleep Hours Per Day", "Blood sugar",
    "CK-MB", "Troponin", "Gender", "Systolic blood pressure",
    "Diastolic blood pressure"
  ]

  /** The engineered features, in the order they are appended. */
  const ENGINEERED_FEATURES: seq<string> := [
    "Lifestyle_Risk", "Medical_Risk", "Total_Risk_Score",
    "Age_BMI", "Age_Cholesterol", "Lipid_Total",
    "Pulse_Pressure", "Mean_Arterial_Pressure",
    "Cardiac_Biomarkers",
    "Activity_Balance", "Sleep_Quality",
    "Age_squared", "BMI_squared", "Cholesterol_squared",
    "Smoking_Diabetes", "Smoking_FamilyHistory", "Obesity_Diabetes", "Stress_Sedentary"
  ]

  /** The columns of a transformed table. */
  const FEATURE_NAMES: seq<string> := BASE_FEATURES + ENGINEERED_FEATURES

  // The sizes of the three lists, for contracts that only need the sizes.
  const BASE_COUNT := 25
  const ENGINEERED_COUNT := 18
  const FEATURE_COUNT := 43

  lemma FeatureCounts()
    ensures |BASE_FEATURES| == BASE_COUNT
    ensures |ENGINEERED_FEATURES| == ENGINEERED_COUNT
    ensures |FEATURE_NAMES| == FEATURE_COUNT
  {
  }

  lemma BaseFeaturesDistinct()
    ensures Distinct(BASE_FEATURES)
  {
  }

  // Positions of the base features used by the formulas.
  const AGE := 0
  const CHOLESTEROL := 1
  const HEART_RATE := 2
  const DIABETES := 3
  const FAMILY_HISTORY := 4
  const SMOKING := 5
  const OBESITY := 6
  const ALCOHOL := 7
  const EXERCISE_HOURS := 8
  const DIET := 9
  const PREVIOUS_HEART_PROBLEMS := 10
  const MEDICATION_USE := 11
  const STRESS_LEVEL := 12
  const SEDENTARY_HOURS := 13
  const INCOME := 14
  const BMI := 15
  const TRIGLYCERIDES := 16
  const ACTIVITY_DAYS := 17
  const SLEEP_HOURS := 18
  const BLOOD_SUGAR := 19
  const CK_MB := 20
  const TROPONIN := 21
  const GENDER := 22
  const SYSTOLIC := 23
  const DIASTOLIC := 24

  // Positions of the engineered features in a transformed row.
  const LIFESTYLE_RISK := 25
  const MEDICAL_RISK := 26
  const TOTAL_RISK_SCORE := 27
  const AGE_BMI := 28
  const AGE_CHOLESTEROL := 29
  const LIPID_TOTAL := 30
  const PULSE_PRESSURE := 31
  const MEAN_ARTERIAL_PRESSURE := 32
  const CARDIAC_BIOMARKERS := 33
  const ACTIVITY_BALANCE := 34
  const SLEEP_QUALITY := 35
  const AGE_SQUARED := 36
  const BMI_SQUARED := 37
  const CHOLESTEROL_SQUARED := 38
  const SMOKING_DIABETES := 39
  const SMOKING_FAMILY_HISTORY := 40
  const OBESITY_DIABETES := 41
  const STRESS_SEDENTARY := 42

  /** The lifestyle score: smoking, obesity and alcohol, plus the share of the
      week without physical activity. */
  function LifestyleRisk(b: seq<Float>): Float
    requires |b| == BASE_COUNT
  {
    Add(Add(Add(b[SMOKING], b[OBESITY]), b[ALCOHOL]), Sub(Fin(1.0), Div(b[ACTIVITY_DAYS], 7.0)))
  }

  /** The medical-history score: diabetes, family history, previous heart problems. */
  function MedicalRisk(b: seq<Float>): Float
    requires |b| == BASE_COUNT
  {
    Add(Add(b[DIABETES], b[FAMILY_HISTORY]), b[PREVIOUS_HEART_PROBLEMS])
  }

  /** The engineered value at position `k` of a transformed row, one formula
      per engineered column. */
  function FeatureAt(b: seq<Float>, k: nat): Float
    requires |b| == BASE_COUNT && LIFESTYLE_RISK <= k <= STRESS_SEDENTARY
  {
    if k == LIFESTYLE_RISK then LifestyleRisk(b)
    else if k == MEDICAL_RISK then MedicalRisk(b)
    else if k == TOTAL_RISK_SCORE then Add(LifestyleRisk(b), MedicalRisk(b))
    else if k == AGE_BMI then Mul(b[AGE], b[BMI])
    else if k == AGE_CHOLESTEROL then Mul(b[AGE], b[CHOLESTEROL])
    else if k == LIPID_TOTAL then Add(b[CHOLESTEROL], b[TRIGLYCERIDES])
    else if k == PULSE_PRESSURE then Sub(b[SYSTOLIC], b[DIASTOLIC])
    else if k == MEAN_ARTERIAL_PRESSURE then Add(b[DIASTOLIC], Div(Sub(b[SYSTOLIC], b[DIASTOLIC]), 3.0))
    else if k == CARDIAC_BIOMARKERS then Add(b[CK_MB], b[TROPONIN])
    else if k == ACTIVITY_BALANCE then Sub(b[EXERCISE_HOURS], b[SEDENTARY_HOURS])
    else if k == SLEEP_QUALITY then Sub(Fin(1.0), Mul(Abs(Sub(b[SLEEP_HOURS], Fin(0.5))), Fin(2.0)))
    else if k == AGE_SQUARED then Mul(b[AGE], b[AGE])
    else if k == BMI_SQUARED then Mul(b[BMI], b[BMI])
    else if k == CHOLESTEROL_SQUARED then Mul(b[CHOLESTEROL], b[CHOLESTEROL])
    else if k == SMOKING_DIABETES then Mul(b[SMOKING], b[DIABETES])
    else if k == SMOKING_FAMILY_HISTORY then Mul(b[SMOKING], b[FAMILY_HISTORY])
    else if k == OBESITY_DIABETES then Mul(b[OBESITY], b[DIABETES])
    else Mul(b[STRESS_LEVEL], b[SEDENTARY_HOURS])
  }

  /** `_create_features` on one row: the base row, unchanged, followed by the
      engineered values in column order. */
  function CreateFeatures(b: seq<Float>): (r: seq<Float>)
    requires |b| == BASE_COUNT
    ensures |r| == FEATURE_COUNT
    ensures forall k | 0 <= k < BASE_COUNT :: r[k] == b[k]
    ensures forall k | LIFESTYLE_RISK <= k <= STRESS_SEDENTARY :: r[k] == FeatureAt(b, k)
  {
    b + seq(ENGINEERED_COUNT, j requires 0 <= j < ENGINEERED_COUNT => FeatureAt(b, LIFESTYLE_RISK + j))
  }

  /** `_create_features` on a table whose columns are the base features. */
  function Engineer(f: Frame<Float>): (g: Frame<Float>)
    requires f.columns == BASE_FEATURES
    requires forall i | 0 <= i < |f.rows| :: |f.rows[i]| == BASE_COUNT
    ensures g.columns == FEATURE_NAMES && |g.rows| == |f.rows|
    ensures forall i | 0 <= i < |f.rows| :: g.rows[i] == CreateFeatures(f.rows[i])
  {
    Frame(FEATURE_NAMES, seq(|f.rows|, i requires 0 <= i < |f.rows| => CreateFeatures(f.rows[i])))
  }
}

=== FILE: features_proofs.dfy ===
/** Properties of the V2 feature layout and of the engineered formulas:
    the column list, which base columns each formula reads, NaN propagation,
    and the arithmetic relations between engineered columns. */
module FeatureProofs {
  import opened Frames
  import opened Features
  import opened FloatArith

  /** The base columns that engineered column `k` reads. */
  function Inputs(k: nat): set<nat>
    requires LIFESTYLE_RISK <= k <= STRESS_SEDENTARY
  {
    if k == LIFESTYLE_RISK then {SMOKING, OBESITY, ALCOHOL, ACTIVITY_DAYS}
    else if k == MEDICAL_RISK then {DIABETES, FAMILY_HISTORY, PREVIOUS_HEART_PROBLEMS}
    else if k == TOTAL_RISK_SCORE then
      {SMOKING, OBESITY, ALCOHOL, ACTIVITY_DAYS, DIABETES, FAMILY_HISTORY, PREVIOUS_HEART_PROBLEMS}
    else if k == AGE_BMI then {AGE, BMI}
    else if k == AGE_CHOLESTEROL then {AGE, CHOLESTEROL}
    else if k == LIPID_TOTAL then {CHOLESTEROL, TRIGLYCERIDES}
    else if k == PULSE_PRESSURE || k == MEAN_ARTERIAL_PRESSURE then {SYSTOLIC, DIASTOLIC}
    else if k == CARDIAC_BIOMARKERS then {CK_MB, TROPONIN}
    else if k == ACTIVITY_BALANCE then {EXERCISE_HOURS, SEDENTARY_HOURS}
    else if k == SLEEP_QUALITY then {SLEEP_HOURS}
    else if k == AGE_SQUARED then {AGE}
    else if k == BMI_SQUARED then {BMI}
    else if k == CHOLESTEROL_SQUARED then {CHOLESTEROL}
    else if k == SMOKING_DIABETES then {SMOKING, DIABETES}
    else if k == SMOKING_FAMILY_HISTORY then {SMOKING, FAMILY_HISTORY}
    else if k == OBESITY_DIABETES then {OBESITY, DIABETES}
    else {STRESS_LEVEL, SEDENTARY_HOURS}
  }

  /** Base columns kept for the model but read by no formula. */
  const UNUSED_BY_FORMULAS: set<nat> := {HEART_RATE, DIET, MEDICATION_USE, INCOME, BLOOD_SUGAR, GENDER}

  lemma EngineeredDistinct()
    ensures Distinct(ENGINEERED_FEATURES)
  {
  }

  lemma BaseNotEngineered()
    ensures forall j, k | 0 <= j < BASE_COUNT && 0 <= k < ENGINEERED_COUNT :: BASE_FEATURES[j] != ENGINEERED_FEATURES[k]
  {
    FeatureCounts();
  }

  lemma {:induction false} DistinctConcat<T>(a: seq<T>, b: seq<T>)
    requires Distinct(a) && Distinct(b)
    requires forall j, k | 0 <= j < |a| && 0 <= k < |b| :: a[j] != b[k]
    ensures Distinct(a + b)
  {
    forall j, k | 0 <= j < k < |a + b|
      ensures (a + b)[j] != (a + b)[k]
    {
      if k < |a| {
        assert (a + b)[j] == a[j] && (a + b)[k] == a[k];
      } else if j < |a| {
        assert (a + b)[j] == a[j] && (a + b)[k] == b[k - |a|];
      } else {
        assert (a + b)[j] == b[j - |a|] && (a + b)[k] == b[k - |a|];
      }
    }
  }

  /** A transformed table has 43 distinct columns: the 25 base features in
      their declared order, then the 18 engineered ones, each at the position
      its formula writes. */
  lemma FeatureNamesLayout()
    ensures |FEATURE_NAMES| == FEATURE_COUNT == 43
    ensures Distinct(FEATURE_NAMES)
    ensures FEATURE_NAMES[..BASE_COUNT] == BASE_FEATURES
    ensures FEATURE_NAMES[LIFESTYLE_RISK] == "Lifestyle_Risk" && FEATURE_NAMES[MEDICAL_RISK] == "Medical_Risk"
    ensures FEATURE_NAMES[TOTAL_RISK_SCORE] == "Total_Risk_Score"
    ensures FEATURE_NAMES[PULSE_PRESSURE] == "Pulse_Pressure"
    ensures FEATURE_NAMES[MEAN_ARTERIAL_PRESSURE] == "Mean_Arterial_Pressure"
    ensures FEATURE_NAMES[SLEEP_QUALITY] == "Sleep_Quality"
    ensures FEATURE_NAMES[SMOKING_DIABETES] == "Smoking_Diabetes"
    ensures FEATURE_NAMES[STRESS_SEDENTARY] == "Stress_Sedentary"
    ensures FEATURE_NAMES[SMOKING] == "Smoking" && FEATURE_NAMES[DIABETES] == "Diabetes"
    ensures FEATURE_NAMES[SYSTOLIC] == "Systolic blood pressure" && FEATURE_NAMES[DIASTOLIC] == "Diastolic blood pressure"
    ensures FEATURE_NAMES[GENDER] == "Gender"
  {
    FeatureCounts();
    BaseFeaturesDistinct();
    EngineeredDistinct();
    BaseNotEngineered();
    DistinctConcat(BASE_FEATURES, ENGINEERED_FEATURES);
  }

  /** An engineered value depends only on the base columns its formula reads. */
  lemma FeatureDependsOnlyOnInputs(b1: seq<Float>, b2: seq<Float>, k: nat)
    requires |b1| == BASE_COUNT && |b2| == BASE_COUNT
    requires LIFESTYLE_RISK <= k <= STRESS_SEDENTARY
    requires forall j | j in Inputs(k) :: b1[j] == b2[j]
    ensures CreateFeatures(b1)[k] == CreateFeatures(b2)[k]
  {
    assert FeatureAt(b1, k) == FeatureAt(b2, k);
  }

  /** Changing only base columns that no formula reads (heart rate, diet,
      medication use, income, blood sugar, Gender) leaves every engineered
      value as it was. */
  lemma UnusedColumnsDoNotAffectFeatures(b1: seq<Float>, b2: seq<Float>)
    requires |b1| == BASE_COUNT && |b2| == BASE_COUNT
    requires forall j | 0 <= j < BASE_COUNT && j !in UNUSED_BY_FORMULAS :: b1[j] == b2[j]
    ensures forall k | LIFESTYLE_RISK <= k <= STRESS_SEDENTARY :: CreateFeatures(b1)[k] == CreateFeatures(b2)[k]
  {
    forall k | LIFESTYLE_RISK <= k <= STRESS_SEDENTARY
      ensures CreateFeatures(b1)[k] == CreateFeatures(b2)[k]
    {
      assert forall j | j in Inputs(k) :: 0 <= j < BASE_COUNT && j !in UNUSED_BY_FORMULAS;
      FeatureDependsOnlyOnInputs(b1, b2, k);
    }
  }

  /** An engineered value is finite exactly when every base value it reads is;
      a NaN in any of them makes it NaN. */
  lemma FeatureFiniteIff(b: seq<Float>, k: nat)
    requires |b| == BASE_COUNT && LIFESTYLE_RISK <= k <= STRESS_SEDENTARY
    ensures CreateFeatures(b)[k].Fin? <==> forall j | j in Inputs(k) :: b[j].Fin?
    ensures CreateFeatures(b)[k].NaN? <==> exists j | j in Inputs(k) :: b[j].NaN?
  {
    var v := FeatureAt(b, k);
    assert CreateFeatures(b)[k] == v;
  }

  /** The total score is the sum of the lifestyle and medical scores, as
      computed columns. */
  lemma TotalIsLifestylePlusMedical(b: seq<Float>)
    requires |b| == BASE_COUNT
    ensures var r := CreateFeatures(b);
            r[TOTAL_RISK_SCORE] == Add(r[LIFESTYLE_RISK], r[MEDICAL_RISK])
  {
  }

  /** On finite pressures, the mean arterial pressure is (2·diastolic +
      systolic)/3, the diastolic value plus a third of the pulse pressure, and
      lies between the two pressures when systolic ≥ diastolic. */
  lemma MeanArterialPressure(b: seq<Float>)
    requires |b| == BASE_COUNT && b[SYSTOLIC].Fin? && b[DIASTOLIC].Fin?
    ensures var r := CreateFeatures(b);
            var s, d := b[SYSTOLIC].r, b[DIASTOLIC].r;
            && r[PULSE_PRESSURE] == Fin(s - d)
            && r[MEAN_ARTERIAL_PRESSURE] == Fin((2.0 * d + s) / 3.0)
            && r[MEAN_ARTERIAL_PRESSURE].r == d + r[PULSE_PRESSURE].r / 3.0
            && (d <= s ==> d <= r[MEAN_ARTERIAL_PRESSURE].r <= s)
  {
    var r := CreateFeatures(b);
    assert r[PULSE_PRESSURE] == FeatureAt(b, PULSE_PRESSURE);
    assert r[MEAN_ARTERIAL_PRESSURE] == FeatureAt(b, MEAN_ARTERIAL_PRESSURE);
  }

  /** Sleep quality is at most 1, reaches 1 exactly at 0.5 (the normalised
      optimum), and stays in [0, 1] for sleep hours in [0, 1]. */
  lemma SleepQualityBounds(b: seq<Float>)
    requires |b| == BASE_COUNT && b[SLEEP_HOURS].Fin?
    ensures var q := CreateFeatures(b)[SLEEP_QUALITY];
            var h := b[SLEEP_HOURS].r;
            && q.Fin? && q.r <= 1.0
            && (q.r == 1.0 <==> h == 0.5)
            && (0.0 <= h <= 1.0 ==> 0.0 <= q.r)
  {
    assert CreateFeatures(b)[SLEEP_QUALITY] == FeatureAt(b, SLEEP_QUALITY);
  }

  /** The squared columns are the squares of finite inputs, hence never negative. */
  lemma SquaresNonNegative(b: seq<Float>)
    requires |b| == BASE_COUNT && b[AGE].Fin? && b[BMI].Fin? && b[CHOLESTEROL].Fin?
    ensures var r := CreateFeatures(b);
            && r[AGE_SQUARED] == Fin(b[AGE].r * b[AGE].r) && r[AGE_SQUARED].r >= 0.0
            && r[BMI_SQUARED] == Fin(b[BMI].r * b[BMI].r) && r[BMI_SQUARED].r >= 0.0
            && r[CHOLESTEROL_SQUARED] == Fin(b[CHOLESTEROL].r * b[CHOLESTEROL].r) && r[CHOLESTEROL_SQUARED].r >= 0.0
  {
    var r := CreateFeatures(b);
    assert r[AGE_SQUARED] == FeatureAt(b, AGE_SQUARED);
    assert r[BMI_SQUARED] == FeatureAt(b, BMI_SQUARED);
    assert r[CHOLESTEROL_SQUARED] == FeatureAt(b, CHOLESTEROL_SQUARED);
  }

  /** The interaction columns are the products of their two inputs. */
  lemma InteractionProducts(b: seq<Float>)
    requires |b| == BASE_COUNT
    ensures CreateFeatures(b)[SMOKING_DIABETES] == Mul(b[SMOKING], b[DIABETES])
    ensures CreateFeatures(b)[SMOKING_FAMILY_HISTORY] == Mul(b[SMOKING], b[FAMILY_HISTORY])
    ensures CreateFeatures(b)[OBESITY_DIABETES] == Mul(b[OBESITY], b[DIABETES])
    ensures CreateFeatures(b)[STRESS_SEDENTARY] == Mul(b[STRESS_LEVEL], b[SEDENTARY_HOURS])
  {
    var r := CreateFeatures(b);
    assert r[SMOKING_DIABETES] == FeatureAt(b, SMOKING_DIABETES);
    assert r[SMOKING_FAMILY_HISTORY] == FeatureAt(b, SMOKING_FAMILY_HISTORY);
    assert r[OBESITY_DIABETES] == FeatureAt(b, OBESITY_DIABETES);
    assert r[STRESS_SEDENTARY] == FeatureAt(b, STRESS_SEDENTARY);
  }

  /** On 0/1 flags, the smoking-diabetes, smoking-family-history and
      obesity-diabetes columns are the flags of the conjunctions. */
  lemma InteractionsAreConjunctions(b: seq<Float>, smoking: bool, diabetes: bool, obesity: bool, family: bool)
    requires |b| == BASE_COUNT
    requires b[SMOKING] == Flag(smoking) && b[DIABETES] == Flag(diabetes)
    requires b[OBESITY] == Flag(obesity) && b[FAMILY_HISTORY] == Flag(family)
    ensures CreateFeatures(b)[SMOKING_DIABETES] == Flag(smoking && diabetes)
    ensures CreateFeatures(b)[SMOKING_FAMILY_HISTORY] == Flag(smoking && family)
    ensures CreateFeatures(b)[OBESITY_DIABETES] == Flag(obesity && diabetes)
  {
    InteractionProducts(b);
    FlagProduct(smoking, diabetes);
    FlagProduct(smoking, family);
    FlagProduct(obesity, diabetes);
  }

  /** On finite inputs, the lifestyle score is smoking + obesity + alcohol
      plus the share of the week without physical activity. */
  lemma LifestyleScore(b: seq<Float>)
    requires |b| == BASE_COUNT
    requires b[SMOKING].Fin? && b[OBESITY].Fin? && b[ALCOHOL].Fin? && b[ACTIVITY_DAYS].Fin?
    ensures CreateFeatures(b)[LIFESTYLE_RISK]
            == Fin(b[SMOKING].r + b[OBESITY].r + b[ALCOHOL].r + (1.0 - b[ACTIVITY_DAYS].r / 7.0))
  {
    assert CreateFeatures(b)[LIFESTYLE_RISK] == LifestyleRisk(b);
  }

  /** On finite inputs, the medical score is diabetes + family history +
      previous heart problems. */
  lemma MedicalScore(b: seq<Float>)
    requires |b| == BASE_COUNT
    requires b[DIABETES].Fin? && b[FAMILY_HISTORY].Fin? && b[PREVIOUS_HEART_PROBLEMS].Fin?
    ensures CreateFeatures(b)[MEDICAL_RISK]
            == Fin(b[DIABETES].r + b[FAMILY_HISTORY].r + b[PREVIOUS_HEART_PROBLEMS].r)
  {
    assert CreateFeatures(b)[MEDICAL_RISK] == MedicalRisk(b);
  }

  /** A value in [0, 1], as the binary indicator columns are. */
  predicate Indicator(v: Float) {
    v.Fin? && 0.0 <= v.r <= 1.0
  }

  /** With indicator inputs and 0 to 7 active days, the lifestyle score lies
      in [0, 4], the medical score in [0, 3] and the total in [0, 7]. */
  lemma RiskScoreRanges(b: seq<Float>)
    requires |b| == BASE_COUNT
    requires Indicator(b[SMOKING]) && Indicator(b[OBESITY]) && Indicator(b[ALCOHOL])
    requires Indicator(b[DIABETES]) && Indicator(b[FAMILY_HISTORY]) && Indicator(b[PREVIOUS_HEART_PROBLEMS])
    requires b[ACTIVITY_DAYS].Fin? && 0.0 <= b[ACTIVITY_DAYS].r <= 7.0
    ensures var r := CreateFeatures(b);
            && r[LIFESTYLE_RISK].Fin? && 0.0 <= r[LIFESTYLE_RISK].r <= 4.0
            && r[MEDICAL_RISK].Fin? && 0.0 <= r[MEDICAL_RISK].r <= 3.0
            && r[TOTAL_RISK_SCORE].Fin? && 0.0 <= r[TOTAL_RISK_SCORE].r <= 7.0
  {
    LifestyleScore(b);
    MedicalScore(b);
    TotalIsLifestylePlusMedical(b);
  }

  /** Smoking and Diabetes set, Obesity and Family History clear: only the
      smoking-diabetes interaction is 1. */
  lemma InteractionScenario(b: seq<Float>)
    requires |b| == BASE_COUNT
    requires b[SMOKING] == Fin(1.0) && b[DIABETES] == Fin(1.0)
    requires b[OBESITY] == Fin(0.0) && b[FAMILY_HISTORY] == Fin(0.0)
    ensures var r := CreateFeatures(b);
            && r[SMOKING_DIABETES] == Fin(1.0)
            && r[OBESITY_DIABETES] == Fin(0.0)
            && r[SMOKING_FAMILY_HISTORY] == Fin(0.0)
  {
    InteractionsAreConjunctions(b, true, true, false, false);
  }

  /** Systolic 0.8 and diastolic 0.5 give pulse pressure 0.3 and mean arterial
      pressure 0.6. */
  lemma BloodPressureScenario(b: seq<Float>)
    requires |b| == BASE_COUNT && b[SYSTOLIC] == Fin(0.8) && b[DIASTOLIC] == Fin(0.5)
    ensures CreateFeatures(b)[PULSE_PRESSURE] == Fin(0.3)
    ensures CreateFeatures(b)[MEAN_ARTERIAL_PRESSURE] == Fin(0.6)
  {
    MeanArterialPressure(b);
  }
}

=== FILE: floats.dfy ===
/** Arithmetic on converted cells as pandas performs it column-wise: exact
    on finite values, NaN absorbing, plus the facts about 0/1 flags that the
    risk scores rely on. */
module FloatArith {
  import opened Frames

  function Add(a: Float, b: Float): Float {
    if a.Fin? && b.Fin? then Fin(a.r + b.r) else NaN
  }

  function Sub(a: Float, b: Float): Float {
    if a.Fin? && b.Fin? then Fin(a.r - b.r) else NaN
  }

  function Mul(a: Float, b: Float): Float {
    if a.Fin? && b.Fin? then Fin(a.r * b.r) else NaN
  }

  function Div(a: Float, k: real): Float
    requires k != 0.0
  {
    if a.Fin? then Fin(a.r / k) else NaN
  }

  function Abs(a: Float): Float {
    if a.Fin? then Fin(if a.r < 0.0 then -a.r else a.r) else NaN
  }

  /** A 0/1 indicator column value: 1.0 when `p` holds, 0.0 otherwise. */
  function Flag(p: bool): Float {
    if p then Fin(1.0) else Fin(0.0)
  }

  /** The product of two flags is the flag of their conjunction. */
  lemma FlagProduct(p: bool, q: bool)
    ensures Mul(Flag(p), Flag(q)) == Flag(p && q)
  {
  }
}

=== FILE: frames.dfy ===
/** Cells, tables and the handful of column operations the pipeline performs
    on them (a pandas DataFrame reduced to what the pipeline observes). */
module Frames {
  import opened Results

  /** A raw input cell: a number, a string, or a missing value (NaN/None). */
  datatype Value = Num(x: real) | Str(s: string) | Missing

  /** A cell after conversion to float: a finite number or NaN. */
  datatype Float = Fin(r: real) | NaN

  /** A table: named columns and, for each row, one cell per column in column order. */
  datatype Frame<V> = Frame(columns: seq<string>, rows: seq<seq<V>>)

  /** A Python dict, which keeps its keys in insertion order. */
  datatype Record = Record(keys: seq<string>, values: seq<Value>)

  predicate Distinct<T(==)>(s: seq<T>) {
    forall i, j | 0 <= i < j < |s| :: s[i] != s[j]
  }

  /** Column names are unique and every row has one cell per column. */
  predicate WellFormed<V>(f: Frame<V>) {
    && Distinct(f.columns)
    && forall i | 0 <= i < |f.rows| :: |f.rows[i]| == |f.columns|
  }

  predicate WellFormedRecord(r: Record) {
    Distinct(r.keys) && |r.values| == |r.keys|
  }

  /** Position of the first occurrence of `c` in `s`. */
  function IndexOf<T(==)>(s: seq<T>, c: T): (k: nat)
    requires c in s
    ensures k < |s| && s[k] == c
    ensures forall j | 0 <= j < k :: s[j] != c
  {
    if s[0] == c then 0 else 1 + IndexOf(s[1..], c)
  }

  lemma IndexOfAt<T>(s: seq<T>, k: nat)
    requires Distinct(s) && k < |s|
    ensures IndexOf(s, s[k]) == k
  {
  }

  /** The cell of row `i` in column `c`. */
  function Cell<V>(f: Frame<V>, i: nat, c: string): V
    requires WellFormed(f) && i < |f.rows| && c in f.columns
  {
    f.rows[i][IndexOf(f.columns, c)]
  }

  /** The values of column `c`, top to bottom. */
  function Column<V>(f: Frame<V>, c: string): (col: seq<V>)
    requires WellFormed(f) && c in f.columns
    ensures |col| == |f.rows|
    ensures forall i | 0 <= i < |f.rows| :: col[i] == Cell(f, i, c)
  {
    seq(|f.rows|, i requires 0 <= i < |f.rows| => Cell(f, i, c))
  }

  /** The one-row table holding row `i` of `f` under the same columns. */
  function OneRow<V>(f: Frame<V>, i: nat): Frame<V>
    requires i < |f.rows|
  {
    Frame(f.columns, [f.rows[i]])
  }

  /** `pd.DataFrame([d])`: one row, one column per key, in key order. */
  function FromRecord(r: Record): Frame<Value> {
    Frame(r.keys, [r.values])
  }

  /** Row `i` of `f` as a dict from column name to cell. */
  function RecordAt(f: Frame<Value>, i: nat): Record
    requires i < |f.rows|
  {
    Record(f.columns, f.rows[i])
  }

  function Remove<T>(s: seq<T>, k: nat): (r: seq<T>)
    requires k < |s|
    ensures |r| == |s| - 1
    ensures forall j | 0 <= j < |r| :: r[j] == if j < k then s[j] else s[j + 1]
  {
    s[..k] + s[k + 1..]
  }

  lemma RemoveDistinct<T>(s: seq<T>, k: nat)
    requires Distinct(s) && k < |s|
    ensures Distinct(Remove(s, k))
    ensures forall x :: x in Remove(s, k) <==> x in s && x != s[k]
  {
    var r := Remove(s, k);
    forall x
      ensures x in r <==> x in s && x != s[k]
    {
      if x in s && x != s[k] {
        var m := IndexOf(s, x);
        if m < k { assert r[m] == x; } else { assert r[m - 1] == x; }
      }
    }
  }

  /** `df.drop(columns=[c])` when `c` is a column; the table itself otherwise. */
  function DropColumn<V>(f: Frame<V>, c: string): (g: Frame<V>)
    requires WellFormed(f)
    ensures WellFormed(g) && |g.rows| == |f.rows|
    ensures forall d :: d in g.columns <==> d in f.columns && d != c
    ensures forall i, d | 0 <= i < |g.rows| && d in g.columns :: Cell(g, i, d) == Cell(f, i, d)
  {
    if c !in f.columns then f
    else
      var k := IndexOf(f.columns, c);
      var g := Frame(Remove(f.columns, k),
                     seq(|f.rows|, i requires 0 <= i < |f.rows| => Remove(f.rows[i], k)));
      DropColumnCells(f, k, g);
      g
  }

  lemma DropColumnCells<V>(f: Frame<V>, k: nat, g: Frame<V>)
    requires WellFormed(f) && k < |f.columns|
    requires g.columns == Remove(f.columns, k) && |g.rows| == |f.rows|
    requires forall i | 0 <= i < |f.rows| :: g.rows[i] == Remove(f.rows[i], k)
    ensures WellFormed(g)
    ensures forall d :: d in g.columns <==> d in f.columns && d != f.columns[k]
    ensures forall i, d | 0 <= i < |g.rows| && d in g.columns :: Cell(g, i, d) == Cell(f, i, d)
  {
    RemoveDistinct(f.columns, k);
    forall i, d | 0 <= i < |g.rows| && d in g.columns
      ensures Cell(g, i, d) == Cell(f, i, d)
    {
      var j := IndexOf(g.columns, d);
      var j' := if j < k then j else j + 1;
      assert f.columns[j'] == d;
      IndexOfAt(f.columns, j');
    }
  }

  /** `df[c] = df[c].apply(g)` for an existing column `c`. */
  function MapColumn<V>(f: Frame<V>, c: string, g: V -> V): (h: Frame<V>)
    requires WellFormed(f) && c in f.columns
    ensures WellFormed(h) && h.columns == f.columns && |h.rows| == |f.rows|
    ensures forall i, d | 0 <= i < |f.rows| && d in f.columns ::
              Cell(h, i, d) == if d == c then g(Cell(f, i, d)) else Cell(f, i, d)
  {
    var k := IndexOf(f.columns, c);
    Frame(f.columns, seq(|f.rows|, i requires 0 <= i < |f.rows| => f.rows[i][k := g(f.rows[i][k])]))
  }

  /** Every cell replaced by `g` of its column name and its value. */
  function MapCells<V, W>(f: Frame<V>, g: (string, V) -> W): (h: Frame<W>)
    requires WellFormed(f)
    ensures WellFormed(h) && h.columns == f.columns && |h.rows| == |f.rows|
    ensures forall i, d | 0 <= i < |f.rows| && d in f.columns :: Cell(h, i, d) == g(d, Cell(f, i, d))
  {
    Frame(f.columns,
          seq(|f.rows|, i requires 0 <= i < |f.rows| =>
            seq(|f.columns|, j requires 0 <= j < |f.columns| => g(f.columns[j], f.rows[i][j]))))
  }

  /** `df[c] = v` for a new column `c`: appended last, `v` in every row. */
  function AddColumn<V>(f: Frame<V>, c: string, v: V): (h: Frame<V>)
    requires WellFormed(f) && c !in f.columns
    ensures WellFormed(h) && h.columns == f.columns + [c] && |h.rows| == |f.rows|
    ensures forall i, d | 0 <= i < |f.rows| && d in h.columns ::
              Cell(h, i, d) == if d == c then v else Cell(f, i, d)
  {
    var h := Frame(f.columns + [c], seq(|f.rows|, i requires 0 <= i < |f.rows| => f.rows[i] + [v]));
    forall i, d | 0 <= i < |f.rows| && d in h.columns
      ensures Cell(h, i, d) == if d == c then v else Cell(f, i, d)
    {
      if d == c {
        IndexOfAt(h.columns, |f.columns|);
      } else {
        IndexOfAt(h.columns, IndexOf(f.columns, d));
      }
    }
    h
  }

  /** `df[names]`: the listed columns, in the listed order. */
  function Select<V>(f: Frame<V>, names: seq<string>): (h: Frame<V>)
    requires WellFormed(f) && Distinct(names)
    requires forall n | n in names :: n in f.columns
    ensures WellFormed(h) && h.columns == names && |h.rows| == |f.rows|
    ensures forall i, j | 0 <= i < |f.rows| && 0 <= j < |names| :: h.rows[i][j] == Cell(f, i, names[j])
  {
    Frame(names,
          seq(|f.rows|, i requires 0 <= i < |f.rows| =>
            seq(|names|, j requires 0 <= j < |names| => Cell(f, i, names[j]))))
  }

  /** Converts every cell with `g`; fails when some cell does not convert. */
  function TryMapCells<V, W>(f: Frame<V>, g: V -> Option<W>): (r: Option<Frame<W>>)
    requires WellFormed(f)
    ensures r.Some? <==> forall i, j | 0 <= i < |f.rows| && 0 <= j < |f.columns| :: g(f.rows[i][j]).Some?
    ensures r.Some? ==> WellFormed(r.value) && r.value.columns == f.columns && |r.value.rows| == |f.rows|
    ensures r.Some? ==> forall i, j | 0 <= i < |f.rows| && 0 <= j < |f.columns| ::
                          g(f.rows[i][j]) == Some(r.value.rows[i][j])
  {
    if forall i, j | 0 <= i < |f.rows| && 0 <= j < |f.columns| :: g(f.rows[i][j]).Some? then
      Some(Frame(f.columns,
                 seq(|f.rows|, i requires 0 <= i < |f.rows| =>
                   seq(|f.columns|, j requires 0 <= j < |f.columns| => g(f.rows[i][j]).value))))
    else
      None
  }
}

=== FILE: legacy_preprocessor.dfy ===
/** The first-generation training preprocessor (`DataPreprocessor` in
    src/preprocessing/data_preprocessor.py): `fit` records which columns are
    features, `transform` returns a copy of its input. */
module LegacyPreprocessor {
  import opened Results
  import opened Frames
  import Config

  /** The target column `fit` excludes when the caller names none. */
  const DEFAULT_TARGET: string := "Heart Attack Risk (Binary)"

  /** The preprocessor's state: the feature columns, unknown until `fit`,
      and a list of columns to drop that stays empty. */
  datatype State = State(featureColumns: Option<seq<string>>, columnsToDrop: seq<string>)

  /** A freshly constructed preprocessor: no feature columns yet. */
  function New(): (s: State)
    ensures s.featureColumns.None? && |s.columnsToDrop| == 0
  {
    State(None, [])
  }

  /** The columns `fit` never treats as features: the target and the two
      service columns. */
  function Excluded(target: string): seq<string> {
    [target, "id", "Unnamed: 0"]
  }

  /** The input columns that are features, in input order. */
  function FeatureColumns(cols: seq<string>, target: string): (r: seq<string>)
    ensures |r| <= |cols|
    ensures forall c :: c in r <==> c in cols && c !in Excluded(target)
    decreases |cols|
  {
    if |cols| == 0 then []
    else
      var rest := FeatureColumns(cols[1..], target);
      if cols[0] in Excluded(target) then rest else [cols[0]] + rest
  }

  /** The selection distributes over concatenation, so it keeps the columns
      in their input order. */
  lemma {:induction false} FeatureColumnsOrder(a: seq<string>, b: seq<string>, target: string)
    ensures FeatureColumns(a + b, target) == FeatureColumns(a, target) + FeatureColumns(b, target)
    decreases |a|
  {
    if |a| == 0 {
      assert a + b == b;
    } else {
      assert (a + b)[1..] == a[1..] + b;
      FeatureColumnsOrder(a[1..], b, target);
    }
  }

  /** Distinct input columns give distinct feature columns. */
  lemma {:induction false} FeatureColumnsDistinct(cols: seq<string>, target: string)
    requires Distinct(cols)
    ensures Distinct(FeatureColumns(cols, target))
    decreases |cols|
  {
    if |cols| > 0 {
      assert Distinct(cols[1..]) by {
        forall i, j | 0 <= i < j < |cols[1..]|
          ensures cols[1..][i] != cols[1..][j]
        {
          assert cols[1..][i] == cols[i + 1] && cols[1..][j] == cols[j + 1];
        }
      }
      FeatureColumnsDistinct(cols[1..], target);
      assert cols[0] !in cols[1..] by {
        forall k | 0 <= k < |cols[1..]|
          ensures cols[1..][k] != cols[0]
        {
          assert cols[1..][k] == cols[k + 1];
        }
      }
    }
  }

  /** `fit`: records the feature columns of `df` and returns the preprocessor. */
  function Fit(s: State, df: Frame<Value>, target: string): (t: State)
    ensures t.featureColumns == Some(FeatureColumns(df.columns, target))
    ensures forall c :: c in t.featureColumns.value <==> c in df.columns && c !in Excluded(target)
    ensures t.columnsToDrop == s.columnsToDrop
  {
    s.(featureColumns := Some(FeatureColumns(df.columns, target)))
  }

  /** What `fit` records depends only on the input columns and the target,
      never on an earlier `fit`. */
  lemma FitForgetsEarlierFit(s: State, df: Frame<Value>, g: Frame<Value>, target: string, other: string)
    ensures Fit(Fit(s, g, other), df, target) == Fit(s, df, target)
  {
  }

  /** `transform`: a copy of the input; no transformation is applied. */
  function Transform(s: State, df: Frame<Value>): (r: Frame<Value>)
    ensures r.columns == df.columns && r.rows == df.rows
  {
    df
  }

  /** `fit_transform`: `fit` on the table, then `transform` of the same table. */
  function FitTransform(s: State, df: Frame<Value>, target: string): (r: (State, Frame<Value>))
    ensures r.0.featureColumns == Some(FeatureColumns(df.columns, target))
  {
    var t := Fit(s, df, target);
    (t, Transform(t, df))
  }

  /** `fit_transform` leaves the preprocessor as `fit` does and returns the
      table unchanged, whatever state it started from. */
  lemma FitTransformIsFitThenIdentity(s: State, df: Frame<Value>, target: string)
    ensures FitTransform(s, df, target) == (Fit(s, df, target), df)
    ensures Transform(Fit(s, df, target), df) == Transform(s, df)
  {
  }

  /** The default target is the project's target column, and the columns
      `fit` excludes besides the target are exactly the service columns the
      inference transform drops. */
  lemma ExclusionsMatchConfig()
    ensures DEFAULT_TARGET == Config.TARGET_COLUMN
    ensures forall c :: c in Excluded(DEFAULT_TARGET) <==> c == Config.TARGET_COLUMN || c in Config.COLUMNS_TO_DROP
  {
  }

  /** A table with none of the excluded columns keeps all its columns, in order. */
  lemma {:induction false} NothingExcludedKeepsAll(cols: seq<string>, target: string)
    requires forall c | c in cols :: c !in Excluded(target)
    ensures FeatureColumns(cols, target) == cols
    decreases |cols|
  {
    if |cols| > 0 {
      NothingExcludedKeepsAll(cols[1..], target);
    }
  }
}

=== FILE: predictor.dfy ===
/** The V2 predictor (`ModelPredictor` in src/prediction/predictor.py): lazy
    loading of the classifier and its decision threshold, thresholded single
    and batch predictions. The classifier itself is a parameter: `proba(m, x)`
    is the probability of class 1 the loaded model `m` gives the feature row `x`. */
module Predictor {
  import opened Results
  import opened Frames
  import opened Features
  import opened Preprocessor
  import PreprocessorProofs
  import Config

  /** The two files the predictor reads when it loads. */
  datatype Storage<M> = Storage(model: Artifact<M>, threshold: Artifact<real>)

  /** The predictor's state: the loaded model, the threshold in use, whether
      loading completed, and the fill values of its preprocessor. */
  datatype Predictor<M> = Predictor(model: Option<M>, threshold: real, loaded: bool, fill: FillMap)

  /** A loaded predictor always holds a model. Every state the operations
      below reach from `Create` satisfies this. */
  predicate Valid<M>(s: Predictor<M>) {
    s.loaded ==> s.model.Some?
  }

  /** The result of `predict_single`. */
  datatype SingleResult = SingleResult(prediction: int, probability: real, riskLevel: string, thresholdUsed: real)

  /** One row of the result of `predict`. */
  datatype BatchRow = BatchRow(id: Value, prediction: int, probability: real)

  /** The constructor: nothing loaded, the default threshold, and a
      preprocessor built from the persisted fill values. */
  function Create<M>(persistedFill: Artifact<FillMap>): (s: Predictor<M>)
    ensures Valid(s) && !s.loaded && s.model.None?
    ensures s.threshold == Config.DEFAULT_THRESHOLD
    ensures s.fill == InitFillValues(persistedFill)
  {
    Predictor(None, Config.DEFAULT_THRESHOLD, false, InitFillValues(persistedFill))
  }

  /** `load_model`: reads the model, then the threshold. A missing or
      unreadable model leaves the state untouched; an unreadable threshold
      file leaves the new model in place but the predictor not loaded; a
      missing threshold file falls back to the default. */
  function LoadModel<M>(s: Predictor<M>, disk: Storage<M>): (r: (Predictor<M>, Outcome))
    ensures r.0.fill == s.fill
    ensures r.1 == Pass <==> disk.model.Present? && !disk.threshold.Unreadable?
    ensures disk.model == Absent ==> r == (s, Fail(ModelNotFound))
    ensures disk.model == Unreadable ==> r == (s, Fail(ArtifactUnreadable))
    ensures disk.model.Present? ==> r.0.model == Some(disk.model.content)
    ensures r.1 == Pass ==> r.0.loaded
    ensures r.1 == Pass ==> r.0.threshold == (if disk.threshold.Present? then disk.threshold.content else Config.DEFAULT_THRESHOLD)
    ensures r.1.Fail? ==> r.0.loaded == s.loaded && r.0.threshold == s.threshold
  {
    match disk.model
    case Absent => (s, Fail(ModelNotFound))
    case Unreadable => (s, Fail(ArtifactUnreadable))
    case Present(m) =>
      var withModel := s.(model := Some(m));
      match disk.threshold
      case Present(t) => (withModel.(threshold := t, loaded := true), Pass)
      case Absent => (withModel.(threshold := Config.DEFAULT_THRESHOLD, loaded := true), Pass)
      case Unreadable => (withModel, Fail(ArtifactUnreadable))
  }

  /** `_ensure_loaded`: loads unless a model is already loaded. */
  function EnsureLoaded<M>(s: Predictor<M>, disk: Storage<M>): (r: (Predictor<M>, Outcome))
    ensures s.loaded && s.model.Some? ==> r == (s, Pass)
    ensures !(s.loaded && s.model.Some?) ==> r == LoadModel(s, disk)
    ensures r.1 == Pass ==> r.0.loaded && r.0.model.Some?
  {
    if !s.loaded || s.model.None? then LoadModel(s, disk) else (s, Pass)
  }

  /** The thresholded decision: class 1 exactly when the probability reaches
      the threshold. */
  function Classify(p: real, t: real): (c: int)
    ensures c == 0 || c == 1
    ensures c == 1 <==> p >= t
  {
    if p >= t then 1 else 0
  }

  /** The risk label of a prediction. */
  function RiskLevel(prediction: int): (level: string)
    ensures level == "HIGH" || level == "LOW"
  {
    if prediction == 1 then "HIGH" else "LOW"
  }

  /** `round(p, 4)`: the nearest multiple of 1/10000. */
  function Round4(p: real): (q: real)
    ensures -1.0 / 20000.0 < q - p <= 1.0 / 20000.0
  {
    ((p * 10000.0 + 0.5).Floor as real) / 10000.0
  }

  /** `predict_single`: ensures the model is loaded, preprocesses the dict and
      thresholds the model's probability. */
  function PredictSingle<M>(s: Predictor<M>, disk: Storage<M>, d: Record, parse: string -> Option<Float>,
                            proba: (M, seq<Float>) -> real): (r: (Predictor<M>, Result<SingleResult>))
    requires WellFormedRecord(d)
    ensures r.0 == EnsureLoaded(s, disk).0
    ensures EnsureLoaded(s, disk).1.Fail? ==> r.1 == Failure(EnsureLoaded(s, disk).1.error)
    ensures EnsureLoaded(s, disk).1 == Pass ==>
              (r.1.Success? <==> PreprocessSingle(r.0.fill, d, parse).Success?)
    ensures EnsureLoaded(s, disk).1 == Pass && r.1.Failure? ==>
              r.1 == Failure(PreprocessSingle(r.0.fill, d, parse).error)
    ensures r.1.Success? ==>
              var p := proba(r.0.model.value, PreprocessSingle(r.0.fill, d, parse).value.rows[0]);
              && r.0.loaded && r.0.model.Some?
              && (r.1.value.prediction == 1 <==> p >= r.0.threshold)
              && (r.1.value.prediction == 0 <==> p < r.0.threshold)
              && (r.1.value.riskLevel == "HIGH" <==> r.1.value.prediction == 1)
              && r.1.value.probability == Round4(p)
              && r.1.value.thresholdUsed == r.0.threshold
  {
    var (s1, loading) := EnsureLoaded(s, disk);
    if loading.Fail? then (s1, Failure(loading.error))
    else
      match PreprocessSingle(s1.fill, d, parse)
      case Failure(e) => (s1, Failure(e))
      case Success(x) =>
        var p := proba(s1.model.value, x.rows[0]);
        var prediction := Classify(p, s1.threshold);
        (s1, Success(SingleResult(prediction, Round4(p), RiskLevel(prediction), s1.threshold)))
  }

  /** The ids of a batch: the `id` column when there is one, row positions otherwise. */
  function BatchIds(df: Frame<Value>): (ids: seq<Value>)
    requires WellFormed(df)
    ensures |ids| == |df.rows|
    ensures "id" in df.columns ==> forall i | 0 <= i < |df.rows| :: ids[i] == Cell(df, i, "id")
    ensures "id" !in df.columns ==> forall i | 0 <= i < |df.rows| :: ids[i] == Num(i as real)
  {
    if "id" in df.columns then Column(df, "id")
    else seq(|df.rows|, i requires 0 <= i < |df.rows| => Num(i as real))
  }

  /** The result rows for feature rows `x` under model `m` and threshold `t`. */
  function Score<M>(ids: seq<Value>, x: seq<seq<Float>>, m: M, t: real, proba: (M, seq<Float>) -> real): (out: seq<BatchRow>)
    requires |ids| == |x|
    ensures |out| == |x|
    ensures forall i | 0 <= i < |x| :: out[i].id == ids[i]
    ensures forall i | 0 <= i < |x| :: (out[i].prediction == 1 <==> proba(m, x[i]) >= t)
    ensures forall i | 0 <= i < |x| :: (out[i].prediction == 0 <==> proba(m, x[i]) < t)
    ensures forall i | 0 <= i < |x| :: out[i].probability == Round4(proba(m, x[i]))
  {
    seq(|x|, i requires 0 <= i < |x| => BatchRow(ids[i], Classify(proba(m, x[i]), t), Round4(proba(m, x[i]))))
  }

  /** `predict`: ensures the model is loaded, transforms the table and
      thresholds the model's probability for every row. */
  function Predict<M>(s: Predictor<M>, disk: Storage<M>, df: Frame<Value>, parse: string -> Option<Float>,
                      proba: (M, seq<Float>) -> real): (r: (Predictor<M>, Result<seq<BatchRow>>))
    requires WellFormed(df)
    ensures r.0 == EnsureLoaded(s, disk).0
    ensures EnsureLoaded(s, disk).1.Fail? ==> r.1 == Failure(EnsureLoaded(s, disk).1.error)
    ensures EnsureLoaded(s, disk).1 == Pass ==> (r.1.Success? <==> Transform(df, r.0.fill, parse).Success?)
    ensures EnsureLoaded(s, disk).1 == Pass && r.1.Failure? ==>
              r.1 == Failure(Transform(df, r.0.fill, parse).error)
    ensures r.1.Success? ==> |r.1.value| == |df.rows|
    ensures r.1.Success? ==> forall i | 0 <= i < |df.rows| :: r.1.value[i].id == BatchIds(df)[i]
    ensures r.1.Success? ==>
              var x := Transform(df, r.0.fill, parse).value;
              && r.0.loaded && r.0.model.Some?
              && forall i | 0 <= i < |df.rows| ::
                   && (r.1.value[i].prediction == 1 <==> proba(r.0.model.value, x.rows[i]) >= r.0.threshold)
                   && (r.1.value[i].prediction == 0 <==> proba(r.0.model.value, x.rows[i]) < r.0.threshold)
                   && r.1.value[i].probability == Round4(proba(r.0.model.value, x.rows[i]))
  {
    var (s1, loading) := EnsureLoaded(s, disk);
    if loading.Fail? then (s1, Failure(loading.error))
    else
      match Transform(df, s1.fill, parse)
      case Failure(e) => (s1, Failure(e))
      case Success(x) => (s1, Success(Score(BatchIds(df), x.rows, s1.model.value, s1.threshold, proba)))
  }

  // ---------------------------------------------------------------------------
  // Loading

  /** Loading and ensuring keep a predictor valid. */
  lemma LoadingKeepsValid<M>(s: Predictor<M>, disk: Storage<M>)
    requires Valid(s)
    ensures Valid(LoadModel(s, disk).0)
    ensures Valid(EnsureLoaded(s, disk).0)
  {
  }

  /** Once loading succeeded, later calls neither reload nor fail, whatever
      the files now hold. */
  lemma LoadedStaysLoaded<M>(s: Predictor<M>, disk: Storage<M>, later: Storage<M>)
    requires EnsureLoaded(s, disk).1 == Pass
    ensures EnsureLoaded(EnsureLoaded(s, disk).0, later) == (EnsureLoaded(s, disk).0, Pass)
  {
  }

  /** A failed load leaves a valid predictor unloaded, so the next call tries
      to load again, reading the files afresh. */
  lemma RetryAfterFailure<M>(s: Predictor<M>, disk: Storage<M>, later: Storage<M>)
    requires Valid(s) && EnsureLoaded(s, disk).1.Fail?
    ensures !EnsureLoaded(s, disk).0.loaded
    ensures EnsureLoaded(EnsureLoaded(s, disk).0, later) == LoadModel(EnsureLoaded(s, disk).0, later)
  {
  }

  /** A fresh predictor loads exactly when the model file can be read and the
      threshold file is absent or readable; the threshold then is the stored
      one or, with no file, the default. */
  lemma FirstLoad<M>(persistedFill: Artifact<FillMap>, disk: Storage<M>)
    ensures var r := EnsureLoaded(Create<M>(persistedFill), disk);
            && (r.1 == Pass <==> disk.model.Present? && !disk.threshold.Unreadable?)
            && (r.1 == Pass ==> r.0.threshold == (if disk.threshold.Present? then disk.threshold.content else Config.DEFAULT_THRESHOLD))
            && (r.1.Fail? ==> r.0.threshold == Config.DEFAULT_THRESHOLD && !r.0.loaded)
  {
  }

  // ---------------------------------------------------------------------------
  // Decisions

  /** A higher probability never lowers the decision, and a higher threshold
      never raises it. */
  lemma ClassifyMonotone(p: real, q: real, t: real, u: real)
    requires p <= q && t >= u
    ensures Classify(p, t) <= Classify(q, u)
  {
  }

  /** The risk label is HIGH exactly for class 1 and LOW exactly for class 0. */
  lemma RiskLabel(prediction: int)
    requires prediction == 0 || prediction == 1
    ensures RiskLevel(prediction) == "HIGH" <==> prediction == 1
    ensures RiskLevel(prediction) == "LOW" <==> prediction == 0
  {
    assert "HIGH" != "LOW" by {
      assert "HIGH"[0] != "LOW"[0];
    }
  }

  /** The threshold is inclusive: with the default threshold a probability of
      exactly 0.40 is class 1 and anything below it is class 0. */
  lemma DefaultThresholdInclusive(p: real)
    ensures Classify(Config.DEFAULT_THRESHOLD, Config.DEFAULT_THRESHOLD) == 1
    ensures p < Config.DEFAULT_THRESHOLD ==> Classify(p, Config.DEFAULT_THRESHOLD) == 0
  {
  }

  /** Rounding an already rounded probability changes nothing, and a
      probability in [0, 1] stays in [0, 1]. */
  lemma Round4Properties(p: real)
    ensures Round4(Round4(p)) == Round4(p)
    ensures 0.0 <= p <= 1.0 ==> 0.0 <= Round4(p) <= 1.0
  {
    var n := (p * 10000.0 + 0.5).Floor;
    assert Round4(p) * 10000.0 + 0.5 == n as real + 0.5;
    assert (n as real + 0.5).Floor == n;
  }

  // ---------------------------------------------------------------------------
  // Single and batch predictions

  /** Each row of a successful batch is what `predict_single` gives for that
      row as a dict: same decision and same rounded probability. */
  lemma BatchAgreesWithSingle<M>(s: Predictor<M>, disk: Storage<M>, df: Frame<Value>, parse: string -> Option<Float>,
                                 proba: (M, seq<Float>) -> real, i: nat)
    requires WellFormed(df) && i < |df.rows|
    requires Predict(s, disk, df, parse, proba).1.Success?
    ensures WellFormedRecord(RecordAt(df, i))
    ensures var single := PredictSingle(s, disk, RecordAt(df, i), parse, proba);
            && single.0 == Predict(s, disk, df, parse, proba).0
            && single.1.Success?
            && single.1.value.prediction == Predict(s, disk, df, parse, proba).1.value[i].prediction
            && single.1.value.probability == Predict(s, disk, df, parse, proba).1.value[i].probability
  {
    var s1 := EnsureLoaded(s, disk).0;
    PreprocessorProofs.TransformRowIndependent(df, s1.fill, parse, i);
    var x := Transform(df, s1.fill, parse).value;
    assert PreprocessSingle(s1.fill, RecordAt(df, i), parse) == Success(Frame(FEATURE_NAMES, [x.rows[i]]));
  }

  /** Once the model is loaded, a batch succeeds exactly when `predict_single`
      succeeds on every one of its rows. */
  lemma BatchSucceedsIffEverySingleDoes<M>(s: Predictor<M>, disk: Storage<M>, df: Frame<Value>, parse: string -> Option<Float>,
                                           proba: (M, seq<Float>) -> real)
    requires WellFormed(df) && EnsureLoaded(s, disk).1 == Pass
    ensures forall i | 0 <= i < |df.rows| :: WellFormedRecord(RecordAt(df, i))
    ensures Predict(s, disk, df, parse, proba).1.Success? <==>
              forall i | 0 <= i < |df.rows| :: PredictSingle(s, disk, RecordAt(df, i), parse, proba).1.Success?
  {
    var fill := EnsureLoaded(s, disk).0.fill;
    PreprocessorProofs.TransformSucceedsIffEveryRowDoes(df, fill, parse);
    forall i | 0 <= i < |df.rows|
      ensures WellFormedRecord(RecordAt(df, i))
      ensures PredictSingle(s, disk, RecordAt(df, i), parse, proba).1.Success? <==> Transform(OneRow(df, i), fill, parse).Success?
    {
      PreprocessorProofs.TransformRowIndependent(df, fill, parse, i);
    }
  }
}

=== FILE: preprocessor.dfy ===
/** The V2 inference preprocessor: fill-value store, schema normalisation,
    Gender encoding and feature engineering (`DataPreprocessor` in
    src/preprocessing/preprocessor.py). */
module Preprocessor {
  import opened Results
  import opened Frames
  import opened Features
  import Config

  /** Per-column imputation values. */
  type FillMap = map<string, Value>

  /** Training-set modes of the nine columns that have missing values. */
  const DEFAULT_FILL_VALUES: FillMap := map[
    "Diabetes" := Num(1.0),
    "Family History" := Num(0.0),
    "Smoking" := Num(1.0),
    "Obesity" := Num(0.0),
    "Alcohol Consumption" := Num(1.0),
    "Previous Heart Problems" := Num(1.0),
    "Medication Use" := Num(0.0),
    "Stress Level" := Num(5.0),
    "Physical Activity Days Per Week" := Num(3.0)
  ]

  const GENDER_COLUMN := "Gender"

  /** The fill values chosen at construction: the persisted map when it can be
      read, the built-in defaults otherwise; a read failure never escapes. */
  function InitFillValues(persisted: Artifact<FillMap>): (fill: FillMap)
    ensures persisted.Present? ==> fill == persisted.content
    ensures !persisted.Present? ==> fill == DEFAULT_FILL_VALUES
  {
    match persisted
    case Present(m) => m
    case _ => DEFAULT_FILL_VALUES
  }

  /** Step 1: drop each listed column that is present; absent ones are skipped. */
  function DropColumns<V>(f: Frame<V>, names: seq<string>): (g: Frame<V>)
    requires WellFormed(f)
    ensures WellFormed(g) && |g.rows| == |f.rows|
    ensures forall d :: d in g.columns <==> d in f.columns && d !in names
    ensures forall i, d | 0 <= i < |g.rows| && d in g.columns :: Cell(g, i, d) == Cell(f, i, d)
    decreases |names|
  {
    if |names| == 0 then f else DropColumns(DropColumn(f, names[0]), names[1..])
  }

  /** Step 2, one cell: the `replace` to Female/Male labels followed by the
      `map` to 0/1 with the unmatched values kept. The numbers 0 and 1 travel
      to a label and back to themselves, so numbers never change. */
  function EncodeGenderCell(v: Value): Value {
    match v
    case Str(s) =>
      if s == "Female" || s == "0" || s == "0.0" then Num(0.0)
      else if s == "Male" || s == "1" || s == "1.0" then Num(1.0)
      else v
    case _ => v
  }

  /** The Female forms encode to 0, the Male forms to 1, a missing value and
      any other number are kept, and only the strings outside both forms
      survive as strings. */
  lemma GenderEncoding(v: Value)
    ensures EncodeGenderCell(v) == Num(0.0) <==> v in {Str("Female"), Str("0"), Str("0.0"), Num(0.0)}
    ensures EncodeGenderCell(v) == Num(1.0) <==> v in {Str("Male"), Str("1"), Str("1.0"), Num(1.0)}
    ensures EncodeGenderCell(v).Str? <==> v.Str? && v.s !in {"Female", "0", "0.0", "Male", "1", "1.0"}
    ensures EncodeGenderCell(v).Missing? <==> v.Missing?
    ensures !v.Str? ==> EncodeGenderCell(v) == v
  {
  }

  /** Step 2: encode the Gender column when present. A string that survives
      the encoding leaves the column with object dtype, and the label encoder
      then rejects the whole column. */
  function EncodeGender(f: Frame<Value>): (r: Result<Frame<Value>>)
    requires WellFormed(f)
    ensures GENDER_COLUMN !in f.columns ==> r == Success(f)
    ensures GENDER_COLUMN in f.columns ==>
              (r.Failure? <==> exists i | 0 <= i < |f.rows| :: EncodeGenderCell(Cell(f, i, GENDER_COLUMN)).Str?)
    ensures r.Failure? ==> r.error == UnseenGenderLabel
    ensures r.Success? ==> WellFormed(r.value) && r.value.columns == f.columns && |r.value.rows| == |f.rows|
    ensures r.Success? ==> forall i, d | 0 <= i < |f.rows| && d in f.columns ::
              Cell(r.value, i, d) == if d == GENDER_COLUMN then EncodeGenderCell(Cell(f, i, d)) else Cell(f, i, d)
  {
    if GENDER_COLUMN !in f.columns then Success(f)
    else
      var g := MapColumn(f, GENDER_COLUMN, EncodeGenderCell);
      if exists i | 0 <= i < |g.rows| :: Cell(g, i, GENDER_COLUMN).Str? then Failure(UnseenGenderLabel)
      else Success(g)
  }

  /** Step 3, one cell: `fillna` with the column's fill value, if it has one. */
  function ImputeCell(fill: FillMap, c: string, v: Value): Value {
    if v.Missing? && c in fill then fill[c] else v
  }

  /** Step 3: impute every present column that has a fill value. */
  function Impute(f: Frame<Value>, fill: FillMap): (g: Frame<Value>)
    requires WellFormed(f)
    ensures WellFormed(g) && g.columns == f.columns && |g.rows| == |f.rows|
    ensures forall i, d | 0 <= i < |f.rows| && d in f.columns ::
              (Cell(f, i, d).Missing? && d in fill ==> Cell(g, i, d) == fill[d])
              && (!Cell(f, i, d).Missing? || d !in fill ==> Cell(g, i, d) == Cell(f, i, d))
  {
    MapCells(f, (c, v) => ImputeCell(fill, c, v))
  }

  /** Step 4: append each listed column that is absent, filled with 0. */
  function AddAbsent(f: Frame<Value>, names: seq<string>): (g: Frame<Value>)
    requires WellFormed(f)
    ensures WellFormed(g) && |g.rows| == |f.rows|
    ensures forall d :: d in g.columns <==> d in f.columns || d in names
    ensures forall i, d | 0 <= i < |g.rows| && d in g.columns ::
              Cell(g, i, d) == if d in f.columns then Cell(f, i, d) else Num(0.0)
    decreases |names|
  {
    if |names| == 0 then f
    else if names[0] in f.columns then AddAbsent(f, names[1..])
    else AddAbsent(AddColumn(f, names[0], Num(0.0)), names[1..])
  }

  /** Step 6, one cell: `astype(float)`. Python's `float` on a string is the
      parameter `parse`. */
  function ToFloat(v: Value, parse: string -> Option<Float>): Option<Float> {
    match v
    case Num(x) => Some(Fin(x))
    case Missing => Some(NaN)
    case Str(s) => parse(s)
  }

  /** Step 6: convert the whole table, or fail if any cell does not convert. */
  function Coerce(f: Frame<Value>, parse: string -> Option<Float>): (r: Result<Frame<Float>>)
    requires WellFormed(f)
    ensures r.Success? <==> forall i, j | 0 <= i < |f.rows| && 0 <= j < |f.columns| :: ToFloat(f.rows[i][j], parse).Some?
    ensures r.Failure? ==> r.error == NotNumeric
    ensures r.Success? ==> WellFormed(r.value) && r.value.columns == f.columns && |r.value.rows| == |f.rows|
    ensures r.Success? ==> forall i, j | 0 <= i < |f.rows| && 0 <= j < |f.columns| ::
                             ToFloat(f.rows[i][j], parse) == Some(r.value.rows[i][j])
  {
    match TryMapCells(f, v => ToFloat(v, parse))
    case Some(g) => Success(g)
    case None => Failure(NotNumeric)
  }

  /** The seven steps of `transform` in the source's order, with the list of
      service columns to drop as a parameter. */
  function TransformSteps(f: Frame<Value>, fill: FillMap, parse: string -> Option<Float>, drop: seq<string>): (r: Result<Frame<Float>>)
    requires WellFormed(f)
    ensures r.Success? ==> r.value.columns == FEATURE_NAMES && |r.value.rows| == |f.rows|
    ensures r.Success? ==> forall i | 0 <= i < |f.rows| :: |r.value.rows[i]| == FEATURE_COUNT
  {
    var dropped := DropColumns(f, drop);
    var encoded :- EncodeGender(dropped);
    var imputed := Impute(encoded, fill);
    var complete := AddAbsent(imputed, BASE_FEATURES);
    BaseFeaturesDistinct();
    var selected := Select(complete, BASE_FEATURES);
    var numeric :- Coerce(selected, parse);
    Success(Engineer(numeric))
  }

  /** `transform`: drops the configured service columns, then runs the remaining steps. */
  function Transform(f: Frame<Value>, fill: FillMap, parse: string -> Option<Float>): (r: Result<Frame<Float>>)
    requires WellFormed(f)
    ensures r.Success? ==> r.value.columns == FEATURE_NAMES && |r.value.rows| == |f.rows|
    ensures r.Success? ==> forall i | 0 <= i < |f.rows| :: |r.value.rows[i]| == FEATURE_COUNT
  {
    TransformSteps(f, fill, parse, Config.COLUMNS_TO_DROP)
  }

  /** `preprocess_single`: the transform of the one-row table built from a dict. */
  function PreprocessSingle(fill: FillMap, d: Record, parse: string -> Option<Float>): (r: Result<Frame<Float>>)
    requires WellFormedRecord(d)
    ensures r.Success? ==> r.value.columns == FEATURE_NAMES && |r.value.rows| == 1
  {
    Transform(FromRecord(d), fill, parse)
  }
}

=== FILE: preprocessor_proofs.dfy ===
/** A cell-by-cell reference for the V2 transform, the proof that the
    step-by-step transform agrees with it, and the properties that follow:
    row independence, the output schema, zero-filling, imputation and
    Gender encoding. */
module PreprocessorProofs {
  import opened Results
  import opened Frames
  import opened Features
  import opened Preprocessor
  import Config

  /** The value base column `c` holds just before float conversion, read off
      one input row: 0 when the column is absent, otherwise the cell after
      Gender encoding (for Gender) and imputation. */
  function BaseValue(cols: seq<string>, row: seq<Value>, fill: FillMap, c: string): Value
    requires |row| == |cols|
  {
    if c !in cols then Num(0.0)
    else
      var v := row[IndexOf(cols, c)];
      ImputeCell(fill, c, if c == GENDER_COLUMN then EncodeGenderCell(v) else v)
  }

  /** The row holds a Gender string the label encoder has never seen. */
  predicate GenderRejected(cols: seq<string>, row: seq<Value>)
    requires |row| == |cols|
  {
    GENDER_COLUMN in cols && EncodeGenderCell(row[IndexOf(cols, GENDER_COLUMN)]).Str?
  }

  /** The 25 base values of one input row, in canonical order, before conversion. */
  function BaseRow(cols: seq<string>, row: seq<Value>, fill: FillMap): (base: seq<Value>)
    requires |row| == |cols|
    ensures |base| == BASE_COUNT
  {
    seq(BASE_COUNT, j requires 0 <= j < BASE_COUNT => BaseValue(cols, row, fill, BASE_FEATURES[j]))
  }

  /** Float conversion of a whole row, cell by cell, or None as soon as a cell
      does not convert. */
  function ConvertRow(vs: seq<Value>, parse: string -> Option<Float>): (r: Option<seq<Float>>)
    ensures r.Some? ==> |r.value| == |vs|
    decreases |vs|
  {
    if |vs| == 0 then Some([])
    else match ToFloat(vs[0], parse)
      case None => None
      case Some(x) =>
        match ConvertRow(vs[1..], parse)
        case None => None
        case Some(rest) => Some([x] + rest)
  }

  /** A row converts exactly when each of its cells does, to the cells' values. */
  lemma {:induction false} ConvertRowCells(vs: seq<Value>, parse: string -> Option<Float>)
    ensures ConvertRow(vs, parse).Some? <==> forall j | 0 <= j < |vs| :: ToFloat(vs[j], parse).Some?
    ensures ConvertRow(vs, parse).Some? ==> forall j | 0 <= j < |vs| :: ToFloat(vs[j], parse) == Some(ConvertRow(vs, parse).value[j])
    decreases |vs|
  {
    if |vs| > 0 {
      ConvertRowCells(vs[1..], parse);
      assert forall j | 1 <= j < |vs| :: vs[j] == vs[1..][j - 1];
    }
  }

  /** The transformed row computed from that row alone. */
  function RowReference(cols: seq<string>, row: seq<Value>, fill: FillMap, parse: string -> Option<Float>): Result<seq<Float>>
    requires |row| == |cols|
  {
    if GenderRejected(cols, row) then Failure(UnseenGenderLabel)
    else match ConvertRow(BaseRow(cols, row, fill), parse)
      case None => Failure(NotNumeric)
      case Some(b) => Success(CreateFeatures(b))
  }

  /** The table-level reference: a rejected Gender label in any row fails
      first, then an unconvertible cell in any row; otherwise every row is
      transformed on its own. */
  function TableReference(f: Frame<Value>, fill: FillMap, parse: string -> Option<Float>): Result<Frame<Float>>
    requires WellFormed(f)
  {
    if exists i | 0 <= i < |f.rows| :: GenderRejected(f.columns, f.rows[i]) then Failure(UnseenGenderLabel)
    else if exists i | 0 <= i < |f.rows| :: RowReference(f.columns, f.rows[i], fill, parse).Failure? then Failure(NotNumeric)
    else Success(Frame(FEATURE_NAMES, seq(|f.rows|, i requires 0 <= i < |f.rows| =>
                                            RowReference(f.columns, f.rows[i], fill, parse).value)))
  }

  lemma DropListOutsideBase()
    ensures forall c | c in Config.COLUMNS_TO_DROP :: c !in BASE_FEATURES
  {
  }

  /** A column kept by the drop step holds, after Gender encoding, its input
      cell, encoded when it is the Gender column. */
  lemma EncodedCell(f: Frame<Value>, drop: seq<string>, encoded: Frame<Value>, i: nat, c: string)
    requires WellFormed(f) && i < |f.rows|
    requires EncodeGender(DropColumns(f, drop)) == Success(encoded)
    requires c in f.columns && c !in drop
    ensures c in encoded.columns
    ensures Cell(encoded, i, c) == var v := f.rows[i][IndexOf(f.columns, c)];
                                   if c == GENDER_COLUMN then EncodeGenderCell(v) else v
  {
    var dropped := DropColumns(f, drop);
    assert c in dropped.columns;
    assert Cell(dropped, i, c) == Cell(f, i, c);
  }

  lemma ImputedCell(encoded: Frame<Value>, fill: FillMap, i: nat, c: string)
    requires WellFormed(encoded) && i < |encoded.rows| && c in encoded.columns
    ensures Cell(Impute(encoded, fill), i, c) == ImputeCell(fill, c, Cell(encoded, i, c))
  {
  }

  lemma CompletedCell(imputed: Frame<Value>, names: seq<string>, i: nat, c: string)
    requires WellFormed(imputed) && i < |imputed.rows| && c in names
    ensures c in AddAbsent(imputed, names).columns
    ensures Cell(AddAbsent(imputed, names), i, c) == if c in imputed.columns then Cell(imputed, i, c) else Num(0.0)
  {
  }

  /** After dropping the columns `drop`, Gender encoding, imputation and
      zero-filling the columns `names`, a kept column `c` of `names` holds the
      reference base value. */
  lemma CompleteCell(f: Frame<Value>, fill: FillMap, drop: seq<string>, encoded: Frame<Value>,
                     names: seq<string>, i: nat, c: string)
    requires WellFormed(f) && i < |f.rows|
    requires EncodeGender(DropColumns(f, drop)) == Success(encoded)
    requires c in names && c !in drop
    ensures c in AddAbsent(Impute(encoded, fill), names).columns
    ensures Cell(AddAbsent(Impute(encoded, fill), names), i, c) == BaseValue(f.columns, f.rows[i], fill, c)
  {
    var imputed := Impute(encoded, fill);
    if c in f.columns {
      assert Cell(imputed, i, c) == BaseValue(f.columns, f.rows[i], fill, c) by {
        EncodedCell(f, drop, encoded, i, c);
        ImputedCell(encoded, fill, i, c);
      }
    } else {
      assert c !in DropColumns(f, drop).columns;
    }
    CompletedCell(imputed, names, i, c);
  }

  /** Selecting the columns `names` after those steps gives the reference base values. */
  lemma SelectedCells(f: Frame<Value>, fill: FillMap, drop: seq<string>, encoded: Frame<Value>, names: seq<string>)
    requires WellFormed(f) && Distinct(names)
    requires EncodeGender(DropColumns(f, drop)) == Success(encoded)
    requires forall c | c in drop :: c !in names
    ensures forall n | n in names :: n in AddAbsent(Impute(encoded, fill), names).columns
    ensures forall i, j | 0 <= i < |f.rows| && 0 <= j < |names| ::
              Select(AddAbsent(Impute(encoded, fill), names), names).rows[i][j]
                == BaseValue(f.columns, f.rows[i], fill, names[j])
  {
    var complete := AddAbsent(Impute(encoded, fill), names);
    forall i, j | 0 <= i < |f.rows| && 0 <= j < |names|
      ensures Select(complete, names).rows[i][j] == BaseValue(f.columns, f.rows[i], fill, names[j])
    {
      CompleteCell(f, fill, drop, encoded, names, i, names[j]);
    }
  }

  /** Dropping columns other than Gender keeps the Gender cells; so the
      Gender step fails exactly when some row's Gender is rejected. */
  lemma GenderStep(f: Frame<Value>, drop: seq<string>)
    requires WellFormed(f) && GENDER_COLUMN !in drop
    ensures EncodeGender(DropColumns(f, drop)).Failure? <==>
              exists i | 0 <= i < |f.rows| :: GenderRejected(f.columns, f.rows[i])
  {
    var dropped := DropColumns(f, drop);
    assert GENDER_COLUMN in dropped.columns <==> GENDER_COLUMN in f.columns;
    if GENDER_COLUMN in f.columns {
      forall i | 0 <= i < |f.rows|
        ensures Cell(dropped, i, GENDER_COLUMN) == f.rows[i][IndexOf(f.columns, GENDER_COLUMN)]
      {
      }
    }
  }

  /** Converting and engineering the reference base rows of a table whose
      Gender step passed gives the table reference. */
  lemma ConvertedAgrees(f: Frame<Value>, fill: FillMap, parse: string -> Option<Float>, selected: Frame<Value>)
    requires WellFormed(f) && WellFormed(selected)
    requires selected.columns == BASE_FEATURES && |selected.rows| == |f.rows|
    requires forall i | 0 <= i < |f.rows| :: selected.rows[i] == BaseRow(f.columns, f.rows[i], fill)
    requires forall i | 0 <= i < |f.rows| :: !GenderRejected(f.columns, f.rows[i])
    ensures Coerce(selected, parse).Failure? ==> TableReference(f, fill, parse) == Failure(NotNumeric)
    ensures Coerce(selected, parse).Success? ==>
              TableReference(f, fill, parse) == Success(Engineer(Coerce(selected, parse).value))
  {
    if Coerce(selected, parse).Failure? {
      ConvertFailed(f, fill, parse, selected);
    } else {
      ConvertSucceeded(f, fill, parse, selected);
    }
  }

  lemma ConvertFailed(f: Frame<Value>, fill: FillMap, parse: string -> Option<Float>, selected: Frame<Value>)
    requires WellFormed(f) && WellFormed(selected)
    requires selected.columns == BASE_FEATURES && |selected.rows| == |f.rows|
    requires forall i | 0 <= i < |f.rows| :: selected.rows[i] == BaseRow(f.columns, f.rows[i], fill)
    requires forall i | 0 <= i < |f.rows| :: !GenderRejected(f.columns, f.rows[i])
    requires Coerce(selected, parse).Failure?
    ensures TableReference(f, fill, parse) == Failure(NotNumeric)
  {
    var i, j :| 0 <= i < |f.rows| && 0 <= j < BASE_COUNT && ToFloat(selected.rows[i][j], parse).None?;
    ConvertRowCells(selected.rows[i], parse);
    assert RowReference(f.columns, f.rows[i], fill, parse).Failure?;
  }

  lemma ConvertSucceeded(f: Frame<Value>, fill: FillMap, parse: string -> Option<Float>, selected: Frame<Value>)
    requires WellFormed(f) && WellFormed(selected)
    requires selected.columns == BASE_FEATURES && |selected.rows| == |f.rows|
    requires forall i | 0 <= i < |f.rows| :: selected.rows[i] == BaseRow(f.columns, f.rows[i], fill)
    requires forall i | 0 <= i < |f.rows| :: !GenderRejected(f.columns, f.rows[i])
    requires Coerce(selected, parse).Success?
    ensures TableReference(f, fill, parse) == Success(Engineer(Coerce(selected, parse).value))
  {
    var numeric := Coerce(selected, parse).value;
    forall i | 0 <= i < |f.rows|
      ensures RowReference(f.columns, f.rows[i], fill, parse) == Success(CreateFeatures(numeric.rows[i]))
    {
      var b := ConvertRow(BaseRow(f.columns, f.rows[i], fill), parse);
      ConvertRowCells(selected.rows[i], parse);
      assert b.Some?;
      assert b.value == numeric.rows[i];
    }
    var ref := TableReference(f, fill, parse);
    assert ref.Success?;
    assert Engineer(numeric).rows == ref.value.rows;
  }

  /** Once the Gender step has passed, the remaining steps agree with the reference. */
  lemma StepsAfterGender(f: Frame<Value>, fill: FillMap, parse: string -> Option<Float>, drop: seq<string>, encoded: Frame<Value>)
    requires WellFormed(f)
    requires forall c | c in drop :: c !in BASE_FEATURES
    requires EncodeGender(DropColumns(f, drop)) == Success(encoded)
    ensures TransformSteps(f, fill, parse, drop) == TableReference(f, fill, parse)
  {
    GenderStep(f, drop);
    BaseFeaturesDistinct();
    SelectedRows(f, fill, drop, encoded);
    ConvertedAgrees(f, fill, parse, Select(AddAbsent(Impute(encoded, fill), BASE_FEATURES), BASE_FEATURES));
  }

  /** After the Gender step, imputation, zero-filling and selection, each row
      is the reference base row. */
  lemma SelectedRows(f: Frame<Value>, fill: FillMap, drop: seq<string>, encoded: Frame<Value>)
    requires WellFormed(f)
    requires forall c | c in drop :: c !in BASE_FEATURES
    requires EncodeGender(DropColumns(f, drop)) == Success(encoded)
    ensures Distinct(BASE_FEATURES)
    ensures forall n | n in BASE_FEATURES :: n in AddAbsent(Impute(encoded, fill), BASE_FEATURES).columns
    ensures var selected := Select(AddAbsent(Impute(encoded, fill), BASE_FEATURES), BASE_FEATURES);
            && WellFormed(selected) && selected.columns == BASE_FEATURES && |selected.rows| == |f.rows|
            && forall i | 0 <= i < |f.rows| :: selected.rows[i] == BaseRow(f.columns, f.rows[i], fill)
  {
    BaseFeaturesDistinct();
    SelectedCells(f, fill, drop, encoded, BASE_FEATURES);
    var selected := Select(AddAbsent(Impute(encoded, fill), BASE_FEATURES), BASE_FEATURES);
    forall i | 0 <= i < |f.rows|
      ensures selected.rows[i] == BaseRow(f.columns, f.rows[i], fill)
    {
      var base := BaseRow(f.columns, f.rows[i], fill);
      assert forall j | 0 <= j < BASE_COUNT :: selected.rows[i][j] == base[j];
    }
  }

  /** The steps, whatever service columns they drop outside the base
      features, compute the cell-by-cell reference. */
  lemma StepsMatchReference(f: Frame<Value>, fill: FillMap, parse: string -> Option<Float>, drop: seq<string>)
    requires WellFormed(f)
    requires forall c | c in drop :: c !in BASE_FEATURES
    ensures TransformSteps(f, fill, parse, drop) == TableReference(f, fill, parse)
  {
    GenderStep(f, drop);
    var gender := EncodeGender(DropColumns(f, drop));
    if gender.Failure? {
      assert TransformSteps(f, fill, parse, drop) == Failure(UnseenGenderLabel);
    } else {
      StepsAfterGender(f, fill, parse, drop, gender.value);
    }
  }

  /** The seven-step transform computes, row by row, the cell-by-cell reference. */
  lemma TransformMatchesReference(f: Frame<Value>, fill: FillMap, parse: string -> Option<Float>)
    requires WellFormed(f)
    ensures Transform(f, fill, parse) == TableReference(f, fill, parse)
  {
    DropListOutsideBase();
    StepsMatchReference(f, fill, parse, Config.COLUMNS_TO_DROP);
  }

  /** What the transform of a table is, row by row, in terms of the row reference. */
  lemma TransformByRows(f: Frame<Value>, fill: FillMap, parse: string -> Option<Float>)
    requires WellFormed(f)
    ensures var r := Transform(f, fill, parse);
            && (r.Success? <==> forall i | 0 <= i < |f.rows| :: RowReference(f.columns, f.rows[i], fill, parse).Success?)
            && (r == Failure(UnseenGenderLabel) <==> exists i | 0 <= i < |f.rows| :: GenderRejected(f.columns, f.rows[i]))
            && (r.Success? ==> forall i | 0 <= i < |f.rows| :: RowReference(f.columns, f.rows[i], fill, parse) == Success(r.value.rows[i]))
  {
    TransformMatchesReference(f, fill, parse);
    ReferenceByRows(f, fill, parse);
  }

  lemma RowRejection(cols: seq<string>, row: seq<Value>, fill: FillMap, parse: string -> Option<Float>)
    requires |row| == |cols|
    ensures RowReference(cols, row, fill, parse) == Failure(UnseenGenderLabel) <==> GenderRejected(cols, row)
    ensures RowReference(cols, row, fill, parse).Failure? && !GenderRejected(cols, row) ==>
              RowReference(cols, row, fill, parse) == Failure(NotNumeric)
  {
  }

  lemma OneRowWellFormed<V>(f: Frame<V>, i: nat)
    requires WellFormed(f) && i < |f.rows|
    ensures WellFormed(OneRow(f, i))
  {
  }

  /** The table reference in terms of its rows' references. */
  lemma ReferenceByRows(f: Frame<Value>, fill: FillMap, parse: string -> Option<Float>)
    requires WellFormed(f)
    ensures var r := TableReference(f, fill, parse);
            && (r.Success? <==> forall i | 0 <= i < |f.rows| :: RowReference(f.columns, f.rows[i], fill, parse).Success?)
            && (r == Failure(UnseenGenderLabel) <==> exists i | 0 <= i < |f.rows| :: GenderRejected(f.columns, f.rows[i]))
            && (r.Failure? ==> r.error == UnseenGenderLabel || r.error == NotNumeric)
            && (r.Success? ==> r.value.columns == FEATURE_NAMES && |r.value.rows| == |f.rows|)
            && (r.Success? ==> forall i | 0 <= i < |f.rows| :: RowReference(f.columns, f.rows[i], fill, parse) == Success(r.value.rows[i]))
  {
  }

  /** The reference of a one-row table is the reference of its row. */
  lemma SingleRowReference(g: Frame<Value>, fill: FillMap, parse: string -> Option<Float>)
    requires WellFormed(g) && |g.rows| == 1
    ensures var row := RowReference(g.columns, g.rows[0], fill, parse);
            && (row.Failure? ==> TableReference(g, fill, parse) == Failure(row.error))
            && (row.Success? ==> TableReference(g, fill, parse) == Success(Frame(FEATURE_NAMES, [row.value])))
  {
    if RowReference(g.columns, g.rows[0], fill, parse).Success? {
      ReferenceByRows(g, fill, parse);
      SingleRowSuccess(g, TableReference(g, fill, parse));
    } else {
      SingleRowFailure(g, fill, parse);
    }
  }

  lemma SingleRowFailure(g: Frame<Value>, fill: FillMap, parse: string -> Option<Float>)
    requires WellFormed(g) && |g.rows| == 1
    requires RowReference(g.columns, g.rows[0], fill, parse).Failure?
    ensures TableReference(g, fill, parse) == Failure(RowReference(g.columns, g.rows[0], fill, parse).error)
  {
    ReferenceByRows(g, fill, parse);
    RowRejection(g.columns, g.rows[0], fill, parse);
  }

  lemma SingleRowSuccess(g: Frame<Value>, ref: Result<Frame<Float>>)
    requires |g.rows| == 1 && ref.Success? && |ref.value.rows| == 1 && ref.value.columns == FEATURE_NAMES
    ensures ref == Success(Frame(FEATURE_NAMES, [ref.value.rows[0]]))
  {
    assert ref.value.rows == [ref.value.rows[0]];
  }

  /** A table's successful reference holds each row's reference. */
  lemma ReferenceRow(f: Frame<Value>, fill: FillMap, parse: string -> Option<Float>, i: nat)
    requires WellFormed(f) && i < |f.rows|
    ensures TableReference(f, fill, parse).Success? ==>
              RowReference(f.columns, f.rows[i], fill, parse) == Success(TableReference(f, fill, parse).value.rows[i])
  {
  }

  /** The reference of a one-row table is the reference of that row. */
  lemma OneRowReference(f: Frame<Value>, fill: FillMap, parse: string -> Option<Float>, i: nat)
    requires WellFormed(f) && i < |f.rows|
    ensures WellFormed(OneRow(f, i))
    ensures TableReference(f, fill, parse).Success? ==>
              TableReference(OneRow(f, i), fill, parse) == Success(Frame(FEATURE_NAMES, [TableReference(f, fill, parse).value.rows[i]]))
    ensures TableReference(OneRow(f, i), fill, parse).Success? <==> RowReference(f.columns, f.rows[i], fill, parse).Success?
    ensures TableReference(OneRow(f, i), fill, parse) == Failure(UnseenGenderLabel) <==> GenderRejected(f.columns, f.rows[i])
  {
    OneRowWellFormed(f, i);
    SingleRowReference(OneRow(f, i), fill, parse);
    ReferenceRow(f, fill, parse, i);
    RowRejection(f.columns, f.rows[i], fill, parse);
  }

  /** Row independence: when the table transforms, each row transforms on its
      own, under the same columns, to the same output row. */
  lemma TransformRowIndependent(f: Frame<Value>, fill: FillMap, parse: string -> Option<Float>, i: nat)
    requires WellFormed(f) && i < |f.rows|
    ensures OneRow(f, i) == FromRecord(RecordAt(f, i))
    ensures Transform(f, fill, parse).Success? ==>
              Transform(OneRow(f, i), fill, parse) == Success(Frame(FEATURE_NAMES, [Transform(f, fill, parse).value.rows[i]]))
  {
    OneRowReference(f, fill, parse, i);
    TransformMatchesReference(f, fill, parse);
    TransformMatchesReference(OneRow(f, i), fill, parse);
  }

  /** The table transforms exactly when every row transforms on its own, and
      it fails on a Gender label exactly when some row does. */
  lemma TransformSucceedsIffEveryRowDoes(f: Frame<Value>, fill: FillMap, parse: string -> Option<Float>)
    requires WellFormed(f)
    ensures forall i | 0 <= i < |f.rows| :: WellFormed(OneRow(f, i))
    ensures Transform(f, fill, parse).Success? <==>
              forall i | 0 <= i < |f.rows| :: Transform(OneRow(f, i), fill, parse).Success?
    ensures Transform(f, fill, parse) == Failure(UnseenGenderLabel) <==>
              exists i | 0 <= i < |f.rows| :: Transform(OneRow(f, i), fill, parse) == Failure(UnseenGenderLabel)
  {
    TransformByRows(f, fill, parse);
    forall i | 0 <= i < |f.rows|
      ensures WellFormed(OneRow(f, i))
      ensures Transform(OneRow(f, i), fill, parse).Success? <==> RowReference(f.columns, f.rows[i], fill, parse).Success?
      ensures Transform(OneRow(f, i), fill, parse) == Failure(UnseenGenderLabel) <==> GenderRejected(f.columns, f.rows[i])
    {
      OneRowReference(f, fill, parse, i);
      TransformMatchesReference(OneRow(f, i), fill, parse);
    }
  }

  /** A successful row reference is the engineered row of the converted base values. */
  lemma RowOutput(cols: seq<string>, row: seq<Value>, fill: FillMap, parse: string -> Option<Float>, out: seq<Float>)
    requires |row| == |cols| && RowReference(cols, row, fill, parse) == Success(out)
    ensures |out| == FEATURE_COUNT && out == CreateFeatures(out[..BASE_COUNT])
    ensures forall j | 0 <= j < BASE_COUNT :: ToFloat(BaseRow(cols, row, fill)[j], parse) == Some(out[j])
  {
    ConvertRowCells(BaseRow(cols, row, fill), parse);
    var b := ConvertRow(BaseRow(cols, row, fill), parse).value;
    assert out == CreateFeatures(b);
  }

  /** On success, output row `i` holds, for every base feature, the converted
      reference value of input row `i`, followed by the engineered values. */
  lemma TransformOutputRow(f: Frame<Value>, fill: FillMap, parse: string -> Option<Float>, i: nat, j: nat)
    requires WellFormed(f) && i < |f.rows| && j < BASE_COUNT
    requires Transform(f, fill, parse).Success?
    ensures Transform(f, fill, parse).value.rows[i] == CreateFeatures(Transform(f, fill, parse).value.rows[i][..BASE_COUNT])
    ensures ToFloat(BaseValue(f.columns, f.rows[i], fill, BASE_FEATURES[j]), parse)
              == Some(Transform(f, fill, parse).value.rows[i][j])
  {
    TransformByRows(f, fill, parse);
    RowOutput(f.columns, f.rows[i], fill, parse, Transform(f, fill, parse).value.rows[i]);
  }

  /** Every base feature absent from the input comes out as 0, and the
      transform does not fail for its absence. This holds for a column with a
      fill value too: zero-filling runs after imputation. */
  lemma AbsentBaseColumnIsZero(f: Frame<Value>, fill: FillMap, parse: string -> Option<Float>, i: nat, j: nat)
    requires WellFormed(f) && i < |f.rows| && j < BASE_COUNT
    requires BASE_FEATURES[j] !in f.columns
    requires Transform(f, fill, parse).Success?
    ensures Transform(f, fill, parse).value.rows[i][j] == Fin(0.0)
  {
    TransformOutputRow(f, fill, parse, i, j);
  }

  /** Imputation as seen in the output: a missing cell of a present column with
      a fill value becomes that value; a missing cell of a column without one
      stays NaN; a present cell is only converted. */
  lemma ImputationInOutput(f: Frame<Value>, fill: FillMap, parse: string -> Option<Float>, i: nat, j: nat)
    requires WellFormed(f) && i < |f.rows| && j < BASE_COUNT
    requires BASE_FEATURES[j] in f.columns && BASE_FEATURES[j] != GENDER_COLUMN
    requires Transform(f, fill, parse).Success?
    ensures var c := BASE_FEATURES[j];
            var out := Transform(f, fill, parse).value.rows[i][j];
            && (Cell(f, i, c).Missing? && c in fill ==> ToFloat(fill[c], parse) == Some(out))
            && (Cell(f, i, c).Missing? && c !in fill ==> out == NaN)
            && (!Cell(f, i, c).Missing? ==> ToFloat(Cell(f, i, c), parse) == Some(out))
  {
    TransformOutputRow(f, fill, parse, i, j);
  }

  /** Gender as seen in the output: the Female forms give 0, the Male forms 1,
      any other number passes through unchanged. */
  lemma GenderInOutput(f: Frame<Value>, fill: FillMap, parse: string -> Option<Float>, i: nat)
    requires WellFormed(f) && i < |f.rows| && GENDER_COLUMN in f.columns
    requires Transform(f, fill, parse).Success?
    ensures var v := Cell(f, i, GENDER_COLUMN);
            var out := Transform(f, fill, parse).value.rows[i][GENDER];
            && (v in {Str("Female"), Str("0"), Str("0.0"), Num(0.0)} ==> out == Fin(0.0))
            && (v in {Str("Male"), Str("1"), Str("1.0"), Num(1.0)} ==> out == Fin(1.0))
            && (v.Num? ==> out == Fin(v.x))
            && (v.Missing? && GENDER_COLUMN !in fill ==> out == NaN)
  {
    assert BASE_FEATURES[GENDER] == GENDER_COLUMN;
    TransformOutputRow(f, fill, parse, i, GENDER);
    GenderBaseValue(f.columns, f.rows[i], fill, parse);
  }

  /** The Gender base value of a row, converted, per the encoding. */
  lemma GenderBaseValue(cols: seq<string>, row: seq<Value>, fill: FillMap, parse: string -> Option<Float>)
    requires |row| == |cols| && GENDER_COLUMN in cols
    ensures var v := row[IndexOf(cols, GENDER_COLUMN)];
            var out := ToFloat(BaseValue(cols, row, fill, GENDER_COLUMN), parse);
            && (v in {Str("Female"), Str("0"), Str("0.0"), Num(0.0)} ==> out == Some(Fin(0.0)))
            && (v in {Str("Male"), Str("1"), Str("1.0"), Num(1.0)} ==> out == Some(Fin(1.0)))
            && (v.Num? ==> out == Some(Fin(v.x)))
            && (v.Missing? && GENDER_COLUMN !in fill ==> out == Some(NaN))
  {
    GenderEncoding(row[IndexOf(cols, GENDER_COLUMN)]);
  }

  /** A Gender string outside the Female and Male forms, in any row, makes
      the whole transform fail with the label encoder's error. */
  lemma UnknownGenderStringRejected(f: Frame<Value>, fill: FillMap, parse: string -> Option<Float>, i: nat)
    requires WellFormed(f) && i < |f.rows| && GENDER_COLUMN in f.columns
    requires Cell(f, i, GENDER_COLUMN).Str?
    requires Cell(f, i, GENDER_COLUMN).s !in {"Female", "0", "0.0", "Male", "1", "1.0"}
    ensures Transform(f, fill, parse) == Failure(UnseenGenderLabel)
  {
    GenderEncoding(Cell(f, i, GENDER_COLUMN));
    assert GenderRejected(f.columns, f.rows[i]);
    TransformMatchesReference(f, fill, parse);
  }

  /** A row with no string cells, under fill values that are not strings, converts. */
  lemma NumericRowConverts(cols: seq<string>, row: seq<Value>, fill: FillMap, parse: string -> Option<Float>)
    requires |row| == |cols|
    requires forall j | 0 <= j < |row| :: !row[j].Str?
    requires forall c | c in fill :: !fill[c].Str?
    ensures RowReference(cols, row, fill, parse).Success?
  {
    if GENDER_COLUMN in cols {
      GenderEncoding(row[IndexOf(cols, GENDER_COLUMN)]);
    }
    var base := BaseRow(cols, row, fill);
    forall j | 0 <= j < |base|
      ensures ToFloat(base[j], parse).Some?
    {
      var c := BASE_FEATURES[j];
      if c in cols {
        GenderEncoding(row[IndexOf(cols, c)]);
      }
    }
    ConvertRowCells(base, parse);
  }

  /** A table with no string cells, and fill values that are not strings,
      always transforms, whichever columns it lacks. */
  lemma NumericInputAlwaysTransforms(f: Frame<Value>, fill: FillMap, parse: string -> Option<Float>)
    requires WellFormed(f)
    requires forall i, j | 0 <= i < |f.rows| && 0 <= j < |f.columns| :: !f.rows[i][j].Str?
    requires forall c | c in fill :: !fill[c].Str?
    ensures Transform(f, fill, parse).Success?
  {
    TransformByRows(f, fill, parse);
    forall i | 0 <= i < |f.rows|
      ensures RowReference(f.columns, f.rows[i], fill, parse).Success?
    {
      NumericRowConverts(f.columns, f.rows[i], fill, parse);
    }
  }

  /** Two tables whose rows have, pairwise, the same references have the same reference. */
  lemma ReferenceOfSameRows(f: Frame<Value>, g: Frame<Value>, fill: FillMap, parse: string -> Option<Float>)
    requires WellFormed(f) && WellFormed(g) && |f.rows| == |g.rows|
    requires forall i | 0 <= i < |f.rows| :: GenderRejected(f.columns, f.rows[i]) == GenderRejected(g.columns, g.rows[i])
    requires forall i | 0 <= i < |f.rows| ::
               RowReference(f.columns, f.rows[i], fill, parse) == RowReference(g.columns, g.rows[i], fill, parse)
    ensures TableReference(f, fill, parse) == TableReference(g, fill, parse)
  {
    ReferenceByRows(f, fill, parse);
    ReferenceByRows(g, fill, parse);
    var rf, rg := TableReference(f, fill, parse), TableReference(g, fill, parse);
    if rf.Success? {
      assert rf.value.rows == rg.value.rows;
    }
  }

  /** Appending a column that is not a base feature, with any values, does not
      change the result: every other column, `id` and `Unnamed: 0` included, is
      discarded. */
  lemma ExtraColumnIgnored(f: Frame<Value>, fill: FillMap, parse: string -> Option<Float>, c: string, values: seq<Value>)
    requires WellFormed(f) && c !in f.columns && c !in BASE_FEATURES && |values| == |f.rows|
    ensures WellFormed(Frame(f.columns + [c], seq(|f.rows|, i requires 0 <= i < |f.rows| => f.rows[i] + [values[i]])))
    ensures Transform(Frame(f.columns + [c], seq(|f.rows|, i requires 0 <= i < |f.rows| => f.rows[i] + [values[i]])), fill, parse)
              == Transform(f, fill, parse)
  {
    var g := Frame(f.columns + [c], seq(|f.rows|, i requires 0 <= i < |f.rows| => f.rows[i] + [values[i]]));
    assert WellFormed(g);
    forall i | 0 <= i < |f.rows|
      ensures GenderRejected(g.columns, g.rows[i]) == GenderRejected(f.columns, f.rows[i])
      ensures RowReference(g.columns, g.rows[i], fill, parse) == RowReference(f.columns, f.rows[i], fill, parse)
    {
      ExtraColumnRow(f.columns, f.rows[i], c, values[i], fill, parse);
    }
    ReferenceOfSameRows(f, g, fill, parse);
    TransformMatchesReference(f, fill, parse);
    TransformMatchesReference(g, fill, parse);
  }

  /** A column outside the base features, appended to a row, changes neither
      its Gender check nor its reference. */
  lemma ExtraColumnRow(cols: seq<string>, row: seq<Value>, c: string, v: Value, fill: FillMap, parse: string -> Option<Float>)
    requires |row| == |cols| && Distinct(cols) && c !in cols && c !in BASE_FEATURES
    ensures GenderRejected(cols + [c], row + [v]) == GenderRejected(cols, row)
    ensures BaseRow(cols + [c], row + [v], fill) == BaseRow(cols, row, fill)
    ensures RowReference(cols + [c], row + [v], fill, parse) == RowReference(cols, row, fill, parse)
  {
    forall b | b in cols
      ensures IndexOf(cols + [c], b) == IndexOf(cols, b)
    {
      IndexOfAt(cols + [c], IndexOf(cols, b));
    }
  }
}

=== FILE: results.dfy ===
/** Optional values, pipeline errors, and the outcome of reading a persisted artifact. */
module Results {

  datatype Option<+T> = None | Some(value: T)

  /** The failures the inference pipeline reports to its caller. */
  datatype Error =
    | ModelNotFound        // the model file does not exist
    | ArtifactUnreadable   // a persisted file exists but deserialising it raised
    | UnseenGenderLabel    // the Gender label encoder met a label other than Female/Male
    | NotNumeric           // a cell could not be converted to a float

  /** A value or the error that prevented computing it; usable with `:-`. */
  datatype Result<+T> = Success(value: T) | Failure(error: Error) {
    predicate IsFailure() { Failure? }

    function PropagateFailure<U>(): Result<U>
      requires Failure?
    {
      Failure(error)
    }

    function Extract(): T
      requires Success?
    {
      value
    }
  }

  /** Success or failure of an action that returns no value. */
  datatype Outcome = Pass | Fail(error: Error)

  /** What reading a persisted file gives: no file, a file that cannot be
      deserialised, or the stored value. */
  datatype Artifact<+T> = Absent | Unreadable | Present(content: T)
}
